=== FILE: README.md ===
# game-recommender-bot in Dafny

A model of the logic inside the Discord bot that links a Discord user to a
Steam account, keeps a PostgreSQL copy of each linked account's owned games
and their cumulative playtime, refreshes that copy once a day, and answers
the `!link_steam`, `!steam_games`, `!top_games` and `!recommend` commands.

The model is functional. The database is two maps, `users: discord_id ->
(username, steam_id)` and `games: (steam_id, name) -> playtime_forever`, and
every query is a pure transition or read on them. Outcomes the program cannot
decide itself become parameters: whether the database answers, what Steam
returns, the user's reply in the chat, and the model's answer. The modules
follow the program:

- `MachineInts`: the `u32`, `i32`, `u64` and `i64` values and the `as` casts between them.
- `Games`: the game record and the hour figure.
- `Store`: `src/database/db.rs`.
- `Sync`: `sync_all_users_games`.
- `Commands`: `split_whitespace` and the `message` dispatch.
- `Ranking`: stable `sort_by_key`, `take` and `max_by_key`.
- `Recommend`: the pure part of `get_recommendation`.
- `Bot`: the command handlers.
- `Results`: `Option` and `Result`.

Error paths are modelled, not excluded. A multi-row upsert fails on an empty
batch, on more than 65535 bind parameters (three per row), and on a name that
appears twice in the batch. The sync loop logs a failed fetch or store and
moves on. For `!steam_games` and `!top_games`, a read of the stored games that
returns no rows is treated like a read that failed; `!recommend` answers a
fixed notice for no rows and an error for a failed read.

## Model

| member | source | states |
|---|---|---|
| MachineInts.U32AsI32 | src/database/db.rs:52 | the cast keeps the bit pattern (equal mod 2^32) and is non-negative exactly below 2^31 |
| MachineInts.I32AsU32 | src/database/db.rs:81 | the cast keeps the bit pattern and lands below 2^31 exactly for non-negative column values |
| MachineInts.WrappingNegI32 | src/llm.rs:86 | negation is congruent to `-y` mod 2^32 and equals `-y` except at `i32::MIN` |
| MachineInts.U64AsI64 | src/bot.rs:151 | the Discord id cast keeps the bit pattern mod 2^64 |
| MachineInts.PlaytimeRoundTrip | src/database/db.rs:52-81 | storing a `u32` playtime as `i32` and reading it back `as u32` gives the same value for every `u32` |
| MachineInts.ColumnRoundTrip | src/database/db.rs:79-82 | every `i32` column value is the stored form of exactly one `u32` |
| MachineInts.DiscordKeyInjective | src/bot.rs:151-154 | two Discord ids with the same `i64` key are the same id, so users never share a row |
| Games.Hours | src/bot.rs:240 | the hour figure is the whole number of hours in the playtime (`h*60 <= p < (h+1)*60`) |
| Games.Names | src/llm.rs:92 | the owned-names list has one name per game, position by position |
| Store.LinkSteam | src/database/db.rs:6-24 | link creates or overwrites one row per Discord id: the id is present with the new steam id; an existing row keeps its username; other rows and the games table are unchanged |
| Store.GetSteamId | src/database/db.rs:27-35 | `None` exactly when the Discord id has no row, otherwise the steam id stored in that row |
| Store.GetSteamIdReturnsLatest | src/database/db.rs:13-34 | after any sequence of links, `get_steam_id` returns the steam id of the last link for that Discord id, or what it returned before if there was none |
| Store.RelinkKeepsUsername | src/database/db.rs:14-15 | relinking never changes a stored username |
| Store.LinksKeepGames | src/database/db.rs:13-21 | linking never touches stored games |
| Store.BatchRows | src/database/db.rs:48-54 | the rows a batch writes are keyed by exactly the batch's names under the steam id, each with the playtime cast `as i32` |
| Store.Upsert | src/database/db.rs:38-66 | the batch upsert succeeds exactly for non-empty, small enough, duplicate-free batches; on success every batch game reads back with its playtime, nothing is deleted, other rows are unchanged, new rows come only from the batch, and users are untouched; its failures are never "unavailable" |
| Store.MergeRows | src/database/db.rs:57-60 | laying a batch over the table overwrites the batch's rows, keeps every other row and adds nothing else |
| Store.UpsertIdempotent | src/database/db.rs:57-60 | upserting the same batch twice gives the same store as upserting it once |
| Store.LastWriteWins | src/database/db.rs:57-60 | after two upserts, names in the second batch have its playtimes and names only in the first keep the first's: playtimes are overwritten, not added |
| Store.GetUserGames | src/database/db.rs:69-86 | the read lists each stored row of the steam id once, with its playtime read back `as u32`, in some order |
| Store.ListsRowsCount | src/database/db.rs:69-85 | a listing has exactly one entry per stored row, and is empty exactly when the steam id has no rows |
| Store.ReadAfterUpsert | src/database/db.rs:48-82 | after a successful upsert, every game of the batch comes back from the read unchanged |
| Store.StoredNamesAfterUpsert | src/database/db.rs:44-64 | an upsert adds exactly the batch's names to the steam id's stored names |
| Store.SingleNameOverwrite | src/database/db.rs:57-60 | two single-game upserts of one name on an empty account leave only the second game |
| Store.OverwriteExample | src/database/db.rs:57-60 | upserting `("G",10)` then `("G",20)` on an empty account reads back exactly `[("G",20)]` |
| Store.GetAllSteamIds | src/database/db.rs:89-97 | the listing has one steam id per users row, so as many as there are users, and contains every linked steam id |
| Store.ListedIdsCoverUsers | src/database/db.rs:91-95 | any valid listing contains the steam id of every users row |
| Sync.StoredWrites | cron/scheduler.rs:23-35 | the upserts a run issues that the database accepts are all acceptable batches |
| Sync.SyncOne | cron/scheduler.rs:24-34 | one loop step stores the games fetched for that same id; a failed fetch or store leaves the store unchanged and is logged against the id; users are untouched |
| Sync.SyncAllUsersGames | cron/scheduler.rs:12-41 | a failed enumeration stores nothing; otherwise every id gets exactly one attempt, in order, and failures never stop the loop; the final store is the initial store upserted in order with the batches of exactly the ids whose fetch and store succeeded |
| Sync.SyncLinkedUsers | cron/scheduler.rs:19-35 | with the ids enumerated from the same store: a failed enumeration changes nothing; otherwise there is one attempt per users row and every linked user's steam id gets an attempt |
| Sync.BatchSurvivesOtherIds | cron/scheduler.rs:23-31 | a batch stored for one steam id survives all later upserts for other steam ids |
| Sync.BulkIsolation | cron/scheduler.rs:23-35 | when an id's fetch and store succeed and no later id repeats it, all its fetched games are stored after the run, whatever happened to other ids |
| Commands.SplitWhitespace | src/bot.rs:26 | `split_whitespace`: skip Unicode whitespace, take the longest run of non-whitespace, repeat; its properties are the split lemmas below |
| Commands.SplitYieldsTokens | src/bot.rs:26 | each piece of `split_whitespace` is non-empty and holds no whitespace |
| Commands.SplitEmptyIffWhitespace | src/bot.rs:26-29 | a message splits into nothing exactly when it is empty or all whitespace |
| Commands.SplitJoinRoundTrip | src/bot.rs:26 | tokens joined by single spaces split back into the same tokens |
| Commands.SplitSkipsWhitespace | src/bot.rs:26 | any leading whitespace leaves the split unchanged |
| Commands.SplitJoinRunsRoundTrip | src/bot.rs:26 | tokens with any leading whitespace, any non-empty whitespace runs between neighbours and any trailing whitespace split back into the same tokens |
| Commands.Dispatch | src/bot.rs:25-58 | empty or all-whitespace messages do nothing; the link handler runs with the second token exactly when the first is `!link_steam` and there are two tokens; `!link_steam` with any other count gets only the help reply; `!steam_games`, `!top_games` and `!recommend` as first token run their handler whatever follows, and only they do; an unknown first token does nothing |
| Commands.LinkCommandReachesHandler | src/bot.rs:32-34 | `!link_steam <id>` reaches the link handler with that id |
| Commands.LinkCommandWithRunsReachesHandler | src/bot.rs:26-34 | `!link_steam` and an id reach the link handler with that id whatever whitespace surrounds and separates them |
| Ranking.SortByKey | src/bot.rs:286 | the sort returns a permutation of its input in non-decreasing key order |
| Ranking.InsertKeepsSorted | src/bot.rs:286 | inserting into a sorted list keeps it sorted |
| Ranking.SortIsStable | src/bot.rs:286 | entries with the same key leave the sort in their input order |
| Ranking.TakeAtMost | src/bot.rs:289 | `take(n)` keeps `min(n, len)` entries and they are the list's first ones |
| Ranking.Top | src/llm.rs:86-87 | sort-then-take keeps `min(n, len)` entries in non-decreasing key order |
| Ranking.DescendingPlaytime | src/bot.rs:286 | the `Reverse(playtime)` key is never positive |
| Ranking.DescendingPlaytimeReverses | src/bot.rs:286 | one game's key is at most another's exactly when its playtime is at least the other's, so ascending keys list the most played first |
| Ranking.TopSelects | src/bot.rs:285-289 | sort-then-take keeps `min(n, len)` entries drawn from the input, sorted, and none left out has a smaller key than a kept one |
| Ranking.TopIsStable | src/bot.rs:285-289 | the kept entries of each key are the first entries of that key in the input |
| Ranking.TopDrawsFromInput | src/bot.rs:287-289 | every kept entry is an input entry |
| Ranking.TopOrderedByPlaytime | src/bot.rs:286-289 | sorting by reversed playtime and taking lists the most played first |
| Ranking.TopKeepsMostPlayed | src/bot.rs:286-289 | no game left out was played more than a listed one |
| Ranking.SortKeyCongruence | src/llm.rs:86 | two sort keys that agree on every input entry sort identically |
| Ranking.LastMaxIndex | src/bot.rs:235 | `max_by_key` reports a game with maximal playtime, and on ties the last one |
| Ranking.LastMaxUnique | src/bot.rs:235 | only one position is the last maximum, so the reported game is determined |
| Recommend.Played | src/llm.rs:85 | the filter keeps exactly the games played at least 60 minutes, with their multiplicity |
| Recommend.PlayedKeepsOrder | src/llm.rs:84-85 | the filter keeps stored order: the games of each playtime of at least 60 minutes appear exactly as in the input, the others not at all |
| Recommend.SourceSortKey | src/llm.rs:86 | the written key is `-p` below 2^31 minutes, `i32::MIN` at 2^31, and the positive `2^32 - p` above |
| Recommend.TopPlayedAsWritten | src/llm.rs:84-87 | the list as written has at most 20 entries, ordered by the written key |
| Recommend.TopPlayed | src/llm.rs:84-87 | the intended list has at most 20 entries, most played first |
| Recommend.SourceKeyAgreesBelow2To31 | src/llm.rs:86 | when every playtime is below 2^31 minutes, the written sort key selects the same list as sorting by descending playtime |
| Recommend.SourceKeyMisordersAbove2To31 | src/llm.rs:86-87 | for playtimes 100 and 2^31+1 the written key lists the less played game first |
| Recommend.SourceKeyAtExactly2To31 | src/llm.rs:86-87 | for playtimes 100 and exactly 2^31 the wrapped key still lists the more played game first |
| Recommend.TopPlayedBounds | src/llm.rs:83-87 | the prompt's top list has at most 20 entries, each played at least 60 minutes |
| Recommend.TopPlayedOrder | src/llm.rs:83-87 | the top list is most played first, the games of each playtime appear in stored order (relative to the played games and to all stored games), and no played game left out has more playtime than a listed one |
| Recommend.Entries | src/llm.rs:88 | each entry shows its game's name and whole hours |
| Recommend.Shuffle | src/llm.rs:95-96 | the shuffled list is a permutation of the top list |
| Recommend.ChooseOr | src/llm.rs:112-116 | the tone is one of the listed tones, and the fallback only for an empty list |
| Recommend.AnswerText | src/llm.rs:151-156 | the answer is the first part of the first candidate when both exist, else the no-recommendation notice |
| Recommend.GetRecommendation | src/llm.rs:73-159 | a failed read is an error with no request; no games answers the fixed notice with no request; otherwise one request is sent with a permutation of the top list, every owned name in order and a listed tone; when every playtime is below 2^31 minutes that top list is also the one the written sort key gives; the result is the answer's text or the request's error |
| Bot.GetSteamGames | src/bot.rs:74-86 | games are returned exactly when the read succeeds with at least one game; empty and failed reads both give nothing |
| Bot.MostPlayedReply | src/bot.rs:234-256 | nothing read gives the retrieval error, an empty list the no-games reply; a non-empty list gives the reply naming the last game of maximal playtime with its hours |
| Bot.NoGamesReplyUnreachable | src/bot.rs:234-249 | the "no games found" branch is never taken; the retrieval error is sent exactly for a failed or empty read |
| Bot.HandleSteamGames | src/bot.rs:201-225 | a failed lookup gives the database error, no link gives the not-linked reply, otherwise the most-played reply |
| Bot.TopGames | src/bot.rs:285-289 | the top list has `min(5, len)` entries |
| Bot.TopGamesSpec | src/bot.rs:285-291 | the top list is non-increasing in playtime, drawn from the games, holds the most played, and keeps stored order among ties |
| Bot.DisplayTopGames | src/bot.rs:260-300 | a failed lookup gives the database error, no link gives the not-linked reply, an empty or failed read gives the retrieval error, otherwise the top list with hours |
| Bot.LowerAscii | src/bot.rs:140 | upper-case ASCII letters move 32 code points up, to their lower-case letter; everything else is unchanged |
| Bot.ConfirmsYes | src/bot.rs:140-150 | the reply confirms exactly when its first three characters are `y`, `e`, `s` in either case |
| Bot.HandleLinkSteam | src/bot.rs:89-198 | the link is written exactly when the id is not yet known, the profile is found, the prompt is posted and the author answers "yes" in time to a working database; games are stored only after that, and the link and games-stored confirmations are sent exactly in those cases; every exit's replies are fixed: check error, already linked, profile error, the prompt then no confirmation, cancel or link failure, and after a written link the Steam-fetch failure, store failure or games-updated reply |
| Bot.LinkRunLinksAuthor | src/bot.rs:150-161 | after a confirmed link, the author's Discord id reads back the new steam id and every other id's link is unchanged |
| Bot.RecommendGames | src/bot.rs:303-361 | a failed lookup gives only the database error and no link only the not-linked reply; otherwise the search notice is sent, then the recommendation or its error if the notice was posted |
| Bot.RecommendGamesRun | src/bot.rs:319-348 | with the recommendation computed from the linked account's games: it is asked for only after the notice was posted; a failed read is reported as an error, no games as the fixed notice, otherwise the request's answer text or its error follows the notice |

## Left out

- Network I/O is not modelled. This covers the Steam and Gemini HTTP requests, JSON decoding, and `src/steam.rs`. Their results are parameters.
- Discord I/O is not modelled. This covers every `say`, the 30-second reply collector, the `ready` handler and message formatting. A handler's replies are values, not text.
- `start_scheduler` and its runtime wiring are left out. The schedule is only the constant `Sync.DailySchedule`.
- `src/main.rs` (bootstrap and configuration) is not part of this model.
- `src/db.rs` is not part of this model. It is not compiled into the crate.
- The tests are not part of this model.
- Randomness is not modelled as a distribution. The shuffle is an arbitrary permutation, and the tone is an arbitrary element of the list.
- Floating-point generation settings and the prompt text are left out.
- `last_updated` timestamps are left out.
- Logging is left out.
- `check_if_user_exists` is called in `src/bot.rs:90`, but `src/database/db.rs` does not define it. Its result is a parameter.
- Store.Upsert: a transient database failure is not part of it. Callers decide that with a parameter, and the model does not compute other database-side rejections either, such as text containing NUL characters.
- Bot.LowerAscii lower-cases ASCII letters only; other characters such as `É` stay unchanged. That is enough for its one use in `Bot.ConfirmsYes`, as the next line explains.
- Bot.ConfirmsYes uses an ASCII case-insensitive compare of the first three characters. That matches `to_lowercase().starts_with("yes")` because only `Y`/`y`, `E`/`e` and `S`/`s` lower-case to those letters.
- The handlers take the outcome of each external call as a parameter. The code has no fetch retry, backoff or 429 handling, and no read cache, so none is modelled.
- Concurrency is not modelled. `src/main.rs:43-47` spawns the scheduler beside the Discord client, so the daily sync and command handlers can interleave. Each handler run and each sync run is modelled as if it ran alone, and each SQL statement as atomic.
- Steam ids are not unique across users. Nothing in `src/database/db.rs` enforces uniqueness, so a steam id linked by two users is listed twice by `Store.GetAllSteamIds`.
- An account's stored names are not replaced by the last batch. The code never deletes rows, so `Store.StoredNamesAfterUpsert` states the old names plus the batch's names.
- MachineInts.WrappingNegI32 models the release build, where `-(p as i32)` wraps at `i32::MIN`. A debug build panics on that overflow, at a playtime of exactly 2^31 minutes; the panic is not modelled.
- Store.Upsert treats an empty batch as a statement the database rejects. A debug build of the query builder may stop on an assertion first; that is not modelled.
- Recommend.GetRecommendation builds the prompt's top list with the corrected key `Recommend.TopPlayed`, not the written `-(p as i32)`. It promises the written list only when every playtime is below 2^31 minutes; above that the code's order differs (see Findings).
- Bot.RecommendGames takes the result of `get_recommendation` as a parameter; `Bot.RecommendGamesRun` composes the two.

## Findings

| source | as written | input that shows it | evidently intended | confidence | as-written member | corrected member |
|---|---|---|---|---|---|---|
| src/llm.rs:86 | sorts by `-(playtime_forever as i32)`; a playtime of more than 2^31 minutes casts to a negative `i32`, so its key becomes positive | games `A` with 100 minutes and `B` with 2^31+1 minutes come out `[A, B]` | most played first, as at src/bot.rs:286 | not executed | Recommend.SourceKeyMisordersAbove2To31 | Recommend.TopPlayedOrder |

`Recommend.TopPlayedAsWritten` is the list as written. `Recommend.TopPlayed` is the corrected list, and the request in `Recommend.GetRecommendation` uses it; that method also states that the two lists agree when every playtime is below 2^31 minutes. At exactly 2^31 minutes the negation overflows: a debug build panics there, and a release build wraps to `i32::MIN`, the smallest key, so that game still sorts first (`Recommend.SourceKeyAtExactly2To31`). `MachineInts.WrappingNegI32` models the release build.

=== FILE: bot.dfy ===
/** The bot's command handlers, as decisions over the outcomes of the
    database reads, the Steam requests and the chat. Every `say` becomes a
    `Reply` value; message text and formatting are not modelled. */
module Bot {
  import opened MachineInts
  import opened Games
  import opened Results
  import opened Store
  import opened Ranking
  import opened Sync
  import opened Recommend

  /** How many games `!top_games` lists. */
  const TopGamesCount: nat := 5

  /** What the bot says in the channel. */
  datatype Reply =
    | ExistsCheckFailed
    | AlreadyLinked
    | ProfileFetchFailed
    | ConfirmPrompt(personaName: string)
    | NoConfirmation
    | Canceled
    | LinkFailed
    | LinkedTo(steamId: SteamId)
    | GamesStoreFailed
    | GamesUpdated
    | SteamFetchFailed
    | NotLinked
    | DatabaseError
    | MostPlayed(name: string, hours: nat)
    | NoGamesInAccount
    | RetrievalFailed
    | TopList(entries: seq<Entry>)
    | Searching
    | Recommendation(text: string)
    | RecommendationFailed(error: RecommendError)

  // ---------------------------------------------------------------------------
  // reading a user's games

  /** `get_steam_games`: the stored games, or `None` both when the read fails
      and when it returns no rows. */
  function GetSteamGames(read: Result<seq<Game>, StoreError>): (r: Option<seq<Game>>)
    ensures r.Some? <==> read.Success? && read.value != []
    ensures r.Some? ==> r.value == read.value
  {
    match read
    case Success(games) => if games != [] then Some(games) else None
    case Failure(_) => None
  }

  /** `fetch_and_display_steam_games` after the read: the game
      `max_by_key(playtime)` reports with its hours, "no games" for an empty
      list, a retrieval error for `None`. */
  function MostPlayedReply(games: Option<seq<Game>>): (r: Reply)
    ensures games.None? <==> r == RetrievalFailed
    ensures r == NoGamesInAccount <==> games == Some([])
    ensures r.MostPlayed? ==>
              && games.Some?
              && exists k: nat :: IsLastMax(games.value, k) && r.name == games.value[k].name
                                  && r.hours == Hours(games.value[k])
    ensures games.Some? && games.value != [] ==>
              var k := LastMaxIndex(games.value);
              r == MostPlayed(games.value[k].name, Hours(games.value[k]))
  {
    match games
    case None => RetrievalFailed
    case Some(gs) =>
      if gs == [] then NoGamesInAccount
      else
        var k := LastMaxIndex(gs);
        MostPlayed(gs[k].name, Hours(gs[k]))
  }

  /** Since `get_steam_games` never yields an empty list, the "no games"
      reply of `fetch_and_display_steam_games` is never sent: a successful
      non-empty read names the last game of maximal playtime, anything else
      reports a retrieval error. */
  lemma NoGamesReplyUnreachable(read: Result<seq<Game>, StoreError>)
    ensures MostPlayedReply(GetSteamGames(read)) != NoGamesInAccount
    ensures MostPlayedReply(GetSteamGames(read)) == RetrievalFailed <==>
              read.Failure? || read.value == []
    ensures read.Success? && read.value != [] ==>
              var k := LastMaxIndex(read.value);
              MostPlayedReply(GetSteamGames(read)) == MostPlayed(read.value[k].name, read.value[k].playtime / 60)
  {
  }

  /** `handle_steam_games`: `lookup` is `get_steam_id` for the author, `read`
      is `get_user_games` for the id found (used only if one is found). */
  function HandleSteamGames(lookup: Result<Option<SteamId>, StoreError>, read: Result<seq<Game>, StoreError>)
    : (r: Reply)
    ensures lookup.Failure? <==> r == DatabaseError
    ensures lookup == Success(None) <==> r == NotLinked
    ensures lookup.Success? && lookup.value.Some? ==> r == MostPlayedReply(GetSteamGames(read))
  {
    match lookup
    case Success(Some(_)) => MostPlayedReply(GetSteamGames(read))
    case Success(None) => NotLinked
    case Failure(_) => DatabaseError
  }

  /** The `!top_games` list: stable sort by descending playtime, keep 5,
      show name and hours. */
  function TopGames(games: seq<Game>): (t: seq<Game>)
    ensures |t| == if |games| <= TopGamesCount then |games| else TopGamesCount
  {
    TopSelects(games, DescendingPlaytime, TopGamesCount);
    Top(games, DescendingPlaytime, TopGamesCount)
  }

  /** The top list is the five most played games: most played first, drawn
      from the stored games, no game left out played more than a listed one,
      and games of equal playtime in stored order. */
  lemma TopGamesSpec(games: seq<Game>, p: int)
    ensures forall i, j :: 0 <= i < j < |TopGames(games)| ==>
              TopGames(games)[i].playtime >= TopGames(games)[j].playtime
    ensures multiset(TopGames(games)) <= multiset(games)
    ensures forall g :: g in multiset(games) - multiset(TopGames(games)) ==>
              forall i :: 0 <= i < |TopGames(games)| ==> g.playtime <= TopGames(games)[i].playtime
    ensures WithKey(TopGames(games), DescendingPlaytime, p) <= WithKey(games, DescendingPlaytime, p)
  {
    TopOrderedByPlaytime(games, TopGamesCount);
    TopKeepsMostPlayed(games, TopGamesCount);
    TopIsStable(games, DescendingPlaytime, TopGamesCount, p);
  }

  /** `display_top_games`: the lookup and read as in `HandleSteamGames`,
      then the top list, or a retrieval error when `get_steam_games` gives
      `None`. */
  function DisplayTopGames(lookup: Result<Option<SteamId>, StoreError>, read: Result<seq<Game>, StoreError>)
    : (r: Reply)
    ensures lookup.Failure? <==> r == DatabaseError
    ensures lookup == Success(None) <==> r == NotLinked
    ensures lookup.Success? && lookup.value.Some? ==>
              if read.Success? && read.value != [] then r == TopList(Entries(TopGames(read.value)))
              else r == RetrievalFailed
  {
    match lookup
    case Failure(_) => DatabaseError
    case Success(None) => NotLinked
    case Success(Some(_)) =>
      match GetSteamGames(read)
      case Some(games) => TopList(Entries(TopGames(games)))
      case None => RetrievalFailed
  }

  // ---------------------------------------------------------------------------
  // linking

  /** ASCII lower case. */
  function LowerAscii(c: char): (l: char)
    ensures 'A' <= c <= 'Z' ==> l as int == c as int + 32
    ensures !('A' <= c <= 'Z') ==> l == c
  {
    if 'A' <= c <= 'Z' then (c as int + 32) as char else c
  }

  /** `reply.to_lowercase().starts_with("yes")`. Only `Y`/`y`, `E`/`e` and
      `S`/`s` lower-case to a string starting with `y`, `e` or `s`, and each
      maps to one character, so comparing the first three characters without
      case is the same test. */
  predicate ConfirmsYes(reply: string)
    ensures ConfirmsYes(reply) <==>
              |reply| >= 3 && reply[0] in "yY" && reply[1] in "eE" && reply[2] in "sS"
  {
    && |reply| >= 3
    && LowerAscii(reply[0]) == 'y'
    && LowerAscii(reply[1]) == 'e'
    && LowerAscii(reply[2]) == 's'
  }

  /** Everything `handle_link_steam` cannot decide by itself, in the order it
      consults them. `alreadyExists` is `check_if_user_exists`, `profile` the
      persona name from `fetch_steam_profile`, `promptSent` whether the
      confirmation prompt was posted, `reply` the author's next message within
      30 seconds, `linkUp` whether the database accepts `link_steam`,
      `fetched` the Steam library and `storeUp` whether the database accepts
      the upsert. */
  datatype LinkOutcomes = LinkOutcomes(
    alreadyExists: Result<bool, StoreError>,
    profile: Result<string, FetchError>,
    promptSent: bool,
    reply: Option<string>,
    linkUp: bool,
    fetched: Result<seq<Game>, FetchError>,
    storeUp: bool)

  /** The conditions under which `handle_link_steam` writes the link: the id
      is not yet known, its profile was found, the prompt was posted, and the
      author answered "yes" in time to a database that accepts the write. */
  predicate LinkWritten(o: LinkOutcomes)
  {
    && o.alreadyExists == Success(false)
    && o.profile.Success?
    && o.promptSent
    && o.reply.Some? && ConfirmsYes(o.reply.value)
    && o.linkUp
  }

  /** The store and the replies after one run of the handler. The replies
      are the messages the handler tries to post, in order, whether or not
      the post goes through. */
  datatype LinkRun = LinkRun(db: Db, replies: seq<Reply>)

  /** `handle_link_steam` for the author `authorId` / `authorName`. */
  function HandleLinkSteam(db: Db, authorId: U64, authorName: string, steamId: SteamId, o: LinkOutcomes)
    : (r: LinkRun)
    // the link is written exactly under `LinkWritten`, and games are
    // fetched and stored only after it
    ensures !LinkWritten(o) ==> r.db == db
    ensures LinkWritten(o) && !Stored(o.fetched, o.storeUp) ==>
              r.db == LinkSteam(db, authorName, U64AsI64(authorId), steamId)
    ensures LinkWritten(o) && Stored(o.fetched, o.storeUp) ==>
              r.db == Upsert(LinkSteam(db, authorName, U64AsI64(authorId), steamId), steamId, o.fetched.value).value
    ensures LinkedTo(steamId) in r.replies <==> LinkWritten(o)
    ensures GamesUpdated in r.replies <==> LinkWritten(o) && Stored(o.fetched, o.storeUp)
    ensures |r.replies| > 0
    // which reply each exit sends, in the order the handler checks
    ensures o.alreadyExists.Failure? ==> r.replies == [ExistsCheckFailed]
    ensures o.alreadyExists == Success(true) ==> r.replies == [AlreadyLinked]
    ensures o.alreadyExists == Success(false) && o.profile.Failure? ==> r.replies == [ProfileFetchFailed]
    ensures o.alreadyExists == Success(false) && o.profile.Success? ==>
              && |r.replies| > 0
              && r.replies[0] == ConfirmPrompt(o.profile.value)
              && (!o.promptSent ==> |r.replies| == 1)
              && (o.promptSent && o.reply.None? ==> r.replies[1..] == [NoConfirmation])
              && (o.promptSent && o.reply.Some? && !ConfirmsYes(o.reply.value) ==>
                    r.replies[1..] == [Canceled])
              && (o.promptSent && o.reply.Some? && ConfirmsYes(o.reply.value) && !o.linkUp ==>
                    r.replies[1..] == [LinkFailed])
    ensures LinkWritten(o) ==>
              r.replies == [ConfirmPrompt(o.profile.value), LinkedTo(steamId),
                            if o.fetched.Failure? then SteamFetchFailed
                            else if Stored(o.fetched, o.storeUp) then GamesUpdated
                            else GamesStoreFailed]
  {
    match o.alreadyExists
    case Failure(_) => LinkRun(db, [ExistsCheckFailed])
    case Success(true) => LinkRun(db, [AlreadyLinked])
    case Success(false) =>
      match o.profile
      case Failure(_) => LinkRun(db, [ProfileFetchFailed])
      case Success(name) =>
        if !o.promptSent then LinkRun(db, [ConfirmPrompt(name)])
        else
          match o.reply
          case None => LinkRun(db, [ConfirmPrompt(name), NoConfirmation])
          case Some(answer) =>
            if !ConfirmsYes(answer) then LinkRun(db, [ConfirmPrompt(name), Canceled])
            else if !o.linkUp then LinkRun(db, [ConfirmPrompt(name), LinkFailed])
            else
              var linked := LinkSteam(db, authorName, U64AsI64(authorId), steamId);
              var prefix := [ConfirmPrompt(name), LinkedTo(steamId)];
              match o.fetched
              case Failure(_) => LinkRun(linked, prefix + [SteamFetchFailed])
              case Success(games) =>
                if !o.storeUp then LinkRun(linked, prefix + [GamesStoreFailed])
                else
                  match Upsert(linked, steamId, games)
                  case Failure(_) => LinkRun(linked, prefix + [GamesStoreFailed])
                  case Success(stored) => LinkRun(stored, prefix + [GamesUpdated])
  }

  /** After a run that writes the link, `get_steam_id` for the author
      returns the new steam id, and every other Discord id's link is as it
      was. */
  lemma LinkRunLinksAuthor(db: Db, authorId: U64, authorName: string, steamId: SteamId, o: LinkOutcomes, d: I64)
    requires LinkWritten(o)
    ensures GetSteamId(HandleLinkSteam(db, authorId, authorName, steamId, o).db, U64AsI64(authorId)) == Some(steamId)
    ensures d != U64AsI64(authorId) ==>
              GetSteamId(HandleLinkSteam(db, authorId, authorName, steamId, o).db, d) == GetSteamId(db, d)
  {
  }

  // ---------------------------------------------------------------------------
  // recommending

  /** `recommend_games`: `lookup` is `get_steam_id`, `announced` whether the
      "getting recommendations" message was posted, `result` the result of
      `get_recommendation` (used only if it is called). The replies are the
      messages the handler tries to post, as in `HandleLinkSteam`. */
  function RecommendGames(lookup: Result<Option<SteamId>, StoreError>, announced: bool,
                          result: Result<string, RecommendError>): (r: seq<Reply>)
    ensures lookup.Failure? <==> r == [DatabaseError]
    ensures lookup == Success(None) <==> r == [NotLinked]
    ensures lookup.Success? && lookup.value.Some? && !announced ==> r == [Searching]
    ensures lookup.Success? && lookup.value.Some? && announced ==>
              r == [Searching, if result.Success? then Recommendation(result.value)
                               else RecommendationFailed(result.error)]
  {
    match lookup
    case Failure(_) => [DatabaseError]
    case Success(None) => [NotLinked]
    case Success(Some(_)) =>
      if !announced then [Searching]
      else
        match result
        case Success(text) => [Searching, Recommendation(text)]
        case Failure(e) => [Searching, RecommendationFailed(e)]
  }

  /** `recommend_games` with `get_recommendation` run on the linked user's
      stored games: `read` is the result of `get_user_games` for the linked
      steam id and `answer` the result of the request to the model. The
      recommendation is asked for only after the "getting recommendations"
      message went out, and its outcome is the second reply. */
  method RecommendGamesRun(lookup: Result<Option<SteamId>, StoreError>, announced: bool,
                           read: Result<seq<Game>, StoreError>, answer: Result<ModelAnswer, RequestError>)
    returns (r: seq<Reply>, sent: Option<Request>)
    ensures !(lookup.Success? && lookup.value.Some? && announced) ==> sent == None
    ensures lookup.Failure? ==> r == [DatabaseError]
    ensures lookup == Success(None) ==> r == [NotLinked]
    ensures lookup.Success? && lookup.value.Some? && !announced ==> r == [Searching]
    ensures lookup.Success? && lookup.value.Some? && announced ==>
              && (read.Failure? ==>
                    r == [Searching, RecommendationFailed(ReadFailed(read.error))] && sent == None)
              && (read.Success? && read.value == [] ==>
                    r == [Searching, Recommendation(NoGamesText)] && sent == None)
              && (read.Success? && read.value != [] ==>
                    && sent.Some?
                    && sent.value.owned == Names(read.value)
                    && r == [Searching, if answer.Success? then Recommendation(AnswerText(answer.value))
                                        else RecommendationFailed(RequestFailed(answer.error))])
  {
    var result: Result<string, RecommendError> := Success(NoGamesText);
    sent := None;
    if lookup.Success? && lookup.value.Some? && announced {
      result, sent := GetRecommendation(read, answer);
    }
    r := RecommendGames(lookup, announced, result);
  }
}

=== FILE: commands.dfy ===
/** How the bot turns a chat message into a command: the content is split on
    whitespace and the first token selects the handler. */
module Commands {

  /** Rust's `char::is_whitespace`: the Unicode `White_Space` property. */
  predicate IsWhitespace(c: char)
  {
    || ('\U{9}' <= c <= '\U{D}')
    || c == '\U{20}'
    || c == '\U{85}'
    || c == '\U{A0}'
    || c == '\U{1680}'
    || ('\U{2000}' <= c <= '\U{200A}')
    || c == '\U{2028}'
    || c == '\U{2029}'
    || c == '\U{202F}'
    || c == '\U{205F}'
    || c == '\U{3000}'
  }

  predicate AllWhitespace(s: string)
  {
    forall i :: 0 <= i < |s| ==> IsWhitespace(s[i])
  }

  /** A token `split_whitespace` can produce: non-empty, no whitespace. */
  predicate IsToken(t: string)
  {
    |t| > 0 && forall i :: 0 <= i < |t| ==> !IsWhitespace(t[i])
  }

  /** Drops the leading whitespace. */
  function SkipWhitespace(s: string): (r: string)
    ensures |r| <= |s| && r == s[|s| - |r|..]
    ensures forall i :: 0 <= i < |s| - |r| ==> IsWhitespace(s[i])
    ensures r == [] || !IsWhitespace(r[0])
  {
    if s == [] || !IsWhitespace(s[0]) then s
    else
      var r := SkipWhitespace(s[1..]);
      assert forall i :: 1 <= i < |s| - |r| ==> s[i] == s[1..][i - 1];
      r
  }

  /** The longest prefix without whitespace. */
  function LeadingWord(s: string): (w: string)
    ensures |w| <= |s| && w == s[..|w|]
    ensures forall i :: 0 <= i < |w| ==> !IsWhitespace(w[i])
    ensures |w| == |s| || IsWhitespace(s[|w|])
  {
    if s == [] || IsWhitespace(s[0]) then []
    else
      assert s == [s[0]] + s[1..];
      [s[0]] + LeadingWord(s[1..])
  }

  /** `split_whitespace()`: the maximal runs of non-whitespace characters, in
      order. */
  function SplitWhitespace(s: string): (ts: seq<string>)
    decreases |s|
  {
    var t := SkipWhitespace(s);
    if t == [] then []
    else
      var w := LeadingWord(t);
      assert |w| > 0 by {
        assert t[0] == s[|s| - |t|];
      }
      [w] + SplitWhitespace(t[|w|..])
  }

  /** One step of `split_whitespace`: past the leading whitespace, the first
      piece is the leading word, and it is a token. */
  lemma SplitStep(s: string)
    ensures SkipWhitespace(s) == [] ==> SplitWhitespace(s) == []
    ensures SkipWhitespace(s) != [] ==>
      var t := SkipWhitespace(s);
      var w := LeadingWord(t);
      && IsToken(w)
      && SplitWhitespace(s) == [w] + SplitWhitespace(t[|w|..])
  {
    var t := SkipWhitespace(s);
    if t != [] {
      assert t[0] == s[|s| - |t|];
    }
  }

  /** Every piece `split_whitespace` yields is a non-empty run without
      whitespace. */
  lemma {:induction false} SplitYieldsTokens(s: string)
    ensures forall i :: 0 <= i < |SplitWhitespace(s)| ==> IsToken(SplitWhitespace(s)[i])
    decreases |s|
  {
    var t := SkipWhitespace(s);
    SplitStep(s);
    if t != [] {
      var w := LeadingWord(t);
      var rest := t[|w|..];
      var ts := SplitWhitespace(s);
      SplitYieldsTokens(rest);
      forall i | 0 <= i < |ts|
        ensures IsToken(ts[i])
      {
        if i > 0 {
          assert ts[i] == SplitWhitespace(rest)[i - 1];
        }
      }
    }
  }

  /** A message splits into no tokens exactly when it is empty or all
      whitespace. */
  lemma SplitEmptyIffWhitespace(s: string)
    ensures SplitWhitespace(s) == [] <==> AllWhitespace(s)
  {
    var t := SkipWhitespace(s);
    if t == [] {
    } else {
      assert t[0] == s[|s| - |t|];
    }
  }

  /** Joins tokens with one space between neighbours. */
  function JoinWithSpaces(ts: seq<string>): string
  {
    if ts == [] then []
    else if |ts| == 1 then ts[0]
    else ts[0] + ([' '] + JoinWithSpaces(ts[1..]))
  }

  /** Leading whitespace does not change the split. */
  lemma SplitSkipsSpace(s: string)
    ensures SplitWhitespace([' '] + s) == SplitWhitespace(s)
  {
    assert ([' '] + s)[1..] == s;
  }

  /** The word of a token followed by anything starting with whitespace is the
      token. */
  lemma {:induction false} LeadingWordOfToken(w: string, rest: string)
    requires IsToken(w)
    requires rest == [] || IsWhitespace(rest[0])
    ensures LeadingWord(w + rest) == w
    decreases |w|
  {
    var s := w + rest;
    assert s[0] == w[0];
    if |w| > 1 {
      assert s[1..] == w[1..] + rest;
      LeadingWordOfToken(w[1..], rest);
    } else {
      assert s[1..] == rest;
    }
  }

  /** A token followed by nothing, or by whitespace, splits into that token
      and the split of the rest. */
  lemma SplitTokenThenRest(w: string, rest: string)
    requires IsToken(w)
    requires rest == [] || IsWhitespace(rest[0])
    ensures SplitWhitespace(w + rest) == [w] + SplitWhitespace(rest)
  {
    var s := w + rest;
    assert s[0] == w[0];
    assert SkipWhitespace(s) == s;
    LeadingWordOfToken(w, rest);
    assert s[|w|..] == rest;
  }

  /** A single token joins to itself and splits back into itself. */
  lemma SplitOneToken(w: string)
    requires IsToken(w)
    ensures SplitWhitespace(JoinWithSpaces([w])) == [w]
  {
    SplitOfToken(w);
  }

  /** A token on its own splits into itself. */
  lemma SplitOfToken(w: string)
    requires IsToken(w)
    ensures SplitWhitespace(w) == [w]
  {
    var nothing := w[|w|..];
    assert w + nothing == w;
    SplitTokenThenRest(w, nothing);
  }

  /** Joining a token in front of a non-empty list and splitting peels the
      token back off. */
  lemma SplitJoinStep(w: string, more: seq<string>)
    requires IsToken(w) && more != []
    ensures SplitWhitespace(JoinWithSpaces([w] + more)) == [w] + SplitWhitespace(JoinWithSpaces(more))
  {
    var joined := JoinWithSpaces(more);
    assert ([w] + more)[1..] == more;
    SplitTokenThenRest(w, [' '] + joined);
    SplitSkipsSpace(joined);
  }

  /** Splitting undoes joining: tokens joined by single spaces split back
      into the same tokens. */
  lemma {:induction false} SplitJoinRoundTrip(ts: seq<string>)
    requires forall i :: 0 <= i < |ts| ==> IsToken(ts[i])
    ensures SplitWhitespace(JoinWithSpaces(ts)) == ts
  {
    if |ts| == 1 {
      assert ts == [ts[0]];
      SplitOneToken(ts[0]);
    } else if |ts| > 1 {
      var more := ts[1..];
      assert ts == [ts[0]] + more;
      assert forall i :: 0 <= i < |more| ==> IsToken(more[i]) by {
        forall i | 0 <= i < |more| ensures IsToken(more[i]) {
          assert more[i] == ts[i + 1];
        }
      }
      SplitJoinRoundTrip(more);
      SplitJoinStep(ts[0], more);
    }
  }

  /** A non-empty run of whitespace, as may separate two tokens. */
  predicate IsRun(sep: string)
  {
    |sep| > 0 && AllWhitespace(sep)
  }

  /** Joins tokens with the given whitespace run between each pair of
      neighbours. */
  function JoinWithRuns(ts: seq<string>, seps: seq<string>): string
    requires |seps| + 1 == |ts|
    decreases |ts|
  {
    if |ts| == 1 then ts[0]
    else ts[0] + (seps[0] + JoinWithRuns(ts[1..], seps[1..]))
  }

  /** Any amount of leading whitespace does not change the split. */
  lemma {:induction false} SplitSkipsWhitespace(ws: string, s: string)
    requires AllWhitespace(ws)
    ensures SplitWhitespace(ws + s) == SplitWhitespace(s)
    decreases |ws|
  {
    if ws == [] {
      assert ws + s == s;
    } else {
      var u := ws + s;
      assert u[0] == ws[0];
      assert u[1..] == ws[1..] + s;
      assert SkipWhitespace(u) == SkipWhitespace(u[1..]);
      SplitSkipsWhitespace(ws[1..], s);
    }
  }

  /** Tokens separated by whitespace runs and followed by optional trailing
      whitespace split back into the tokens. */
  lemma {:induction false} SplitJoinRunsTail(ts: seq<string>, seps: seq<string>, trail: string)
    requires |seps| + 1 == |ts|
    requires forall i :: 0 <= i < |ts| ==> IsToken(ts[i])
    requires forall i :: 0 <= i < |seps| ==> IsRun(seps[i])
    requires AllWhitespace(trail)
    ensures SplitWhitespace(JoinWithRuns(ts, seps) + trail) == ts
    decreases |ts|
  {
    var w := ts[0];
    assert IsToken(w);
    if |ts| == 1 {
      assert ts == [w];
      SplitEmptyIffWhitespace(trail);
      if trail == [] {
        assert w + trail == w;
        SplitOfToken(w);
      } else {
        SplitTokenThenRest(w, trail);
      }
    } else {
      var more, rest := ts[1..], seps[1..];
      assert ts == [w] + more;
      var x := JoinWithRuns(more, rest) + trail;
      assert IsRun(seps[0]);
      assert JoinWithRuns(ts, seps) + trail == w + (seps[0] + x);
      assert (seps[0] + x)[0] == seps[0][0];
      SplitTokenThenRest(w, seps[0] + x);
      SplitSkipsWhitespace(seps[0], x);
      assert forall i :: 0 <= i < |more| ==> IsToken(more[i]) by {
        forall i | 0 <= i < |more| ensures IsToken(more[i]) {
          assert more[i] == ts[i + 1];
        }
      }
      assert forall i :: 0 <= i < |rest| ==> IsRun(rest[i]) by {
        forall i | 0 <= i < |rest| ensures IsRun(rest[i]) {
          assert rest[i] == seps[i + 1];
        }
      }
      SplitJoinRunsTail(more, rest, trail);
    }
  }

  /** Splitting undoes any whitespace layout: tokens with leading whitespace,
      non-empty whitespace runs between neighbours and trailing whitespace
      split back into the same tokens. */
  lemma SplitJoinRunsRoundTrip(lead: string, ts: seq<string>, seps: seq<string>, trail: string)
    requires |seps| + 1 == |ts|
    requires forall i :: 0 <= i < |ts| ==> IsToken(ts[i])
    requires forall i :: 0 <= i < |seps| ==> IsRun(seps[i])
    requires AllWhitespace(lead) && AllWhitespace(trail)
    ensures SplitWhitespace(lead + JoinWithRuns(ts, seps) + trail) == ts
  {
    var body := JoinWithRuns(ts, seps) + trail;
    assert lead + JoinWithRuns(ts, seps) + trail == lead + body;
    SplitSkipsWhitespace(lead, body);
    SplitJoinRunsTail(ts, seps, trail);
  }

  /** The handler a message reaches. */
  datatype Command =
    | NoAction
      /** `!link_steam` without exactly one argument: only the help reply. */
    | LinkHelp
    | LinkSteam(steamId: string)
    | SteamGames
    | TopGames
    | Recommend

  /** The `message` event handler's dispatch. */
  function Dispatch(content: string): (c: Command)
    ensures AllWhitespace(content) ==> c == NoAction
    ensures c.LinkSteam? <==>
              var ts := SplitWhitespace(content); |ts| == 2 && ts[0] == "!link_steam"
    ensures c.LinkSteam? ==> c.steamId == SplitWhitespace(content)[1] && IsToken(c.steamId)
    ensures c == LinkHelp <==>
              var ts := SplitWhitespace(content); |ts| > 0 && ts[0] == "!link_steam" && |ts| != 2
    ensures c == NoAction <==>
              var ts := SplitWhitespace(content);
              ts == [] || ts[0] !in {"!link_steam", "!steam_games", "!top_games", "!recommend"}
    ensures c == SteamGames <==>
              var ts := SplitWhitespace(content); ts != [] && ts[0] == "!steam_games"
    ensures c == TopGames <==>
              var ts := SplitWhitespace(content); ts != [] && ts[0] == "!top_games"
    ensures c == Recommend <==>
              var ts := SplitWhitespace(content); ts != [] && ts[0] == "!recommend"
  {
    var args := SplitWhitespace(content);
    SplitEmptyIffWhitespace(content);
    SplitYieldsTokens(content);
    if args == [] then NoAction
    else
      match args[0]
      case "!link_steam" => if |args| == 2 then LinkSteam(args[1]) else LinkHelp
      case "!steam_games" => SteamGames
      case "!top_games" => TopGames
      case "!recommend" => Recommend
      case _ => NoAction
  }

  /** `!link_steam <id>`, with one space between command and id, reaches the
      link handler with that id. */
  lemma LinkCommandReachesHandler(steamId: string)
    requires IsToken(steamId)
    ensures Dispatch("!link_steam " + steamId) == LinkSteam(steamId)
  {
    var ts := ["!link_steam", steamId];
    assert IsToken("!link_steam");
    SplitJoinRoundTrip(ts);
    assert JoinWithSpaces(ts) == "!link_steam " + steamId by {
      assert ts[1..] == [steamId];
    }
  }

  /** `!link_steam` and an id reach the link handler with that id whatever
      whitespace surrounds and separates them. */
  lemma LinkCommandWithRunsReachesHandler(lead: string, sep: string, steamId: string, trail: string)
    requires AllWhitespace(lead) && IsRun(sep) && IsToken(steamId) && AllWhitespace(trail)
    ensures Dispatch(lead + "!link_steam" + sep + steamId + trail) == LinkSteam(steamId)
  {
    var ts := ["!link_steam", steamId];
    var seps := [sep];
    assert IsToken("!link_steam");
    assert JoinWithRuns(ts, seps) == "!link_steam" + sep + steamId by {
      assert ts[1..] == [steamId];
    }
    assert lead + "!link_steam" + sep + steamId + trail == lead + JoinWithRuns(ts, seps) + trail;
    SplitJoinRunsRoundTrip(lead, ts, seps, trail);
  }
}

=== FILE: games.dfy ===
/** The game record shared by the Steam client, the store and the bot: a name
    and the cumulative playtime in minutes. */
module Games {
  import opened MachineInts

  /** `SteamGame` as the store builds it: the name and `playtime_forever`. */
  datatype Game = Game(name: string, playtime: U32)

  /** The hour figure every reply shows: `playtime_forever / 60`, rounded down. */
  function Hours(g: Game): (h: nat)
    ensures h * 60 <= g.playtime < (h + 1) * 60
  {
    g.playtime / 60
  }

  /** The names of a list of games, in the same order. */
  function Names(gs: seq<Game>): (ns: seq<string>)
    ensures |ns| == |gs|
    ensures forall i :: 0 <= i < |gs| ==> ns[i] == gs[i].name
  {
    seq(|gs|, i requires 0 <= i < |gs| => gs[i].name)
  }

  /** No two entries of the list share a name. */
  predicate DistinctNames(gs: seq<Game>)
  {
    forall i, j :: 0 <= i < j < |gs| ==> gs[i].name != gs[j].name
  }
}

=== FILE: machine_ints.dfy ===
/** The fixed-width integers the bot moves values through, with the Rust
    `as` casts between them written out as two's-complement
    reinterpretations. */
module MachineInts {

  const TwoTo31: int := 0x8000_0000
  const TwoTo32: int := 0x1_0000_0000
  const TwoTo63: int := 0x8000_0000_0000_0000
  const TwoTo64: int := 0x1_0000_0000_0000_0000

  /** Rust `u32`: Steam's `playtime_forever`, in minutes. */
  type U32 = x: int | 0 <= x < 0x1_0000_0000

  /** Rust `i32`, and PostgreSQL `INTEGER`: the `playtime_forever` column. */
  type I32 = x: int | -0x8000_0000 <= x < 0x8000_0000

  /** Rust `u64`: a Discord user id. */
  type U64 = x: int | 0 <= x < 0x1_0000_0000_0000_0000

  /** Rust `i64`, and PostgreSQL `BIGINT`: the `discord_id` column. */
  type I64 = x: int | -0x8000_0000_0000_0000 <= x < 0x8000_0000_0000_0000

  /** `x as i32` for a `u32` x: the same 32 bits read as signed. */
  function U32AsI32(x: U32): (r: I32)
    ensures (r - x) % TwoTo32 == 0
    ensures x < TwoTo31 <==> r >= 0
  {
    if x < TwoTo31 then x else x - TwoTo32
  }

  /** `y as u32` for an `i32` y: the same 32 bits read as unsigned. */
  function I32AsU32(y: I32): (r: U32)
    ensures (r - y) % TwoTo32 == 0
    ensures y >= 0 <==> r < TwoTo31
  {
    if y >= 0 then y else y + TwoTo32
  }

  /** Two's-complement negation `-y` on `i32` as a release build computes it:
      negating `i32::MIN` wraps back to `i32::MIN` (a debug build panics). */
  function WrappingNegI32(y: I32): (r: I32)
    ensures (r + y) % TwoTo32 == 0
    ensures y != -TwoTo31 ==> r == -y
  {
    if y == -TwoTo31 then y else -y
  }

  /** `x as i64` for a `u64` x: the same 64 bits read as signed. */
  function U64AsI64(x: U64): (r: I64)
    ensures (r - x) % TwoTo64 == 0
  {
    if x < TwoTo63 then x else x - TwoTo64
  }

  /** Storing a `u32` playtime as `i32` and reading it back `as u32` loses
      nothing, for every `u32`. */
  lemma PlaytimeRoundTrip(x: U32)
    ensures I32AsU32(U32AsI32(x)) == x
  {
  }

  /** The other direction: every `i32` the column can hold is the image of
      exactly one `u32`. */
  lemma ColumnRoundTrip(y: I32)
    ensures U32AsI32(I32AsU32(y)) == y
  {
  }

  /** The `as i64` cast on Discord ids is injective, so keying the users
      table by the cast id keeps distinct Discord users apart. */
  lemma DiscordKeyInjective(a: U64, b: U64)
    requires U64AsI64(a) == U64AsI64(b)
    ensures a == b
  {
  }
}

=== FILE: ranking.dfy ===
/** The ordering operations the bot performs on a user's games: Rust's stable
    `sort_by_key`, `take(n)` and `max_by_key`. */
module Ranking {
  import opened Games

  /** Every pair of entries is in non-decreasing key order. */
  predicate SortedBy(s: seq<Game>, key: Game -> int)
  {
    forall i, j :: 0 <= i < j < |s| ==> key(s[i]) <= key(s[j])
  }

  /** The entries of `s` whose key is `k`, in their order in `s`. A sort is
      stable exactly when it leaves this subsequence unchanged for every `k`. */
  function WithKey(s: seq<Game>, key: Game -> int, k: int): seq<Game>
  {
    if s == [] then []
    else (if key(s[0]) == k then [s[0]] else []) + WithKey(s[1..], key, k)
  }

  /** Inserts `x` before the first entry whose key is not smaller. */
  function Insert(x: Game, s: seq<Game>, key: Game -> int): (r: seq<Game>)
    ensures |r| == |s| + 1
    ensures multiset(r) == multiset(s) + multiset{x}
  {
    if s == [] then [x]
    else if key(x) <= key(s[0]) then [x] + s
    else
      assert s == [s[0]] + s[1..];
      [s[0]] + Insert(x, s[1..], key)
  }

  /** A sorted list stays sorted when an entry no larger than all of it is
      put in front. */
  lemma SortedCons(a: Game, t: seq<Game>, key: Game -> int)
    requires SortedBy(t, key)
    requires forall i :: 0 <= i < |t| ==> key(a) <= key(t[i])
    ensures SortedBy([a] + t, key)
  {
    var r := [a] + t;
    forall i, j | 0 <= i < j < |r|
      ensures key(r[i]) <= key(r[j])
    {
      assert r[j] == t[j - 1];
      if i > 0 {
        assert r[i] == t[i - 1];
      }
    }
  }

  /** Inserting into a sorted list keeps it sorted. */
  lemma {:induction false} InsertKeepsSorted(x: Game, s: seq<Game>, key: Game -> int)
    requires SortedBy(s, key)
    ensures SortedBy(Insert(x, s, key), key)
  {
    if s == [] {
    } else if key(x) <= key(s[0]) {
      SortedCons(x, s, key);
    } else {
      var tail := s[1..];
      var rest := Insert(x, tail, key);
      assert SortedBy(tail, key);
      InsertKeepsSorted(x, tail, key);
      forall i | 0 <= i < |rest|
        ensures key(s[0]) <= key(rest[i])
      {
        assert rest[i] in multiset(rest);
        if rest[i] != x {
          assert rest[i] in multiset(tail);
          var j :| 0 <= j < |tail| && tail[j] == rest[i];
          assert s[j + 1] == rest[i];
        }
      }
      SortedCons(s[0], rest, key);
    }
  }

  /** Stable sort by ascending key, as Rust's `sort_by_key` and itertools'
      `sorted_by_key` compute it. */
  function SortByKey(s: seq<Game>, key: Game -> int): (r: seq<Game>)
    ensures |r| == |s|
    ensures multiset(r) == multiset(s)
    ensures SortedBy(r, key)
  {
    if s == [] then []
    else
      assert s == [s[0]] + s[1..];
      var rest := SortByKey(s[1..], key);
      InsertKeepsSorted(s[0], rest, key);
      Insert(s[0], rest, key)
  }

  /** `iter().take(n)`: the first `n` entries, or all of them if fewer. */
  function TakeAtMost(s: seq<Game>, n: nat): (r: seq<Game>)
    ensures |r| == if |s| <= n then |s| else n
    ensures r == s[..|r|]
  {
    if |s| <= n then s else s[..n]
  }

  /** Unfolds `WithKey` on a list with a known first entry. */
  lemma WithKeyCons(a: Game, t: seq<Game>, key: Game -> int, k: int)
    ensures WithKey([a] + t, key, k) == (if key(a) == k then [a] else []) + WithKey(t, key, k)
  {
    assert ([a] + t)[1..] == t;
  }

  /** Two single-key pieces commute when at most one of them is non-empty. */
  lemma SwapKept(x: Game, y: Game, key: Game -> int, k: int, w: seq<Game>)
    requires key(x) != key(y)
    ensures (if key(y) == k then [y] else []) + ((if key(x) == k then [x] else []) + w)
         == (if key(x) == k then [x] else []) + ((if key(y) == k then [y] else []) + w)
  {
  }

  /** Inserting `x` puts it ahead of the entries with the same key and leaves
      every other key's entries as they were. */
  lemma {:induction false} InsertKeepsKeyOrder(x: Game, s: seq<Game>, key: Game -> int, k: int)
    ensures WithKey(Insert(x, s, key), key, k) == (if key(x) == k then [x] else []) + WithKey(s, key, k)
  {
    if s == [] {
      WithKeyCons(x, [], key, k);
    } else if key(x) <= key(s[0]) {
      WithKeyCons(x, s, key, k);
    } else {
      InsertKeepsKeyOrder(x, s[1..], key, k);
      InsertPastHead(x, s, key, k);
    }
  }

  /** The step of `InsertKeepsKeyOrder` where `x` goes past the first entry. */
  lemma InsertPastHead(x: Game, s: seq<Game>, key: Game -> int, k: int)
    requires s != [] && key(x) > key(s[0])
    requires WithKey(Insert(x, s[1..], key), key, k) == (if key(x) == k then [x] else []) + WithKey(s[1..], key, k)
    ensures WithKey(Insert(x, s, key), key, k) == (if key(x) == k then [x] else []) + WithKey(s, key, k)
  {
    var tail := s[1..];
    assert s == [s[0]] + tail;
    WithKeyCons(s[0], Insert(x, tail, key), key, k);
    WithKeyCons(s[0], tail, key, k);
    SwapKept(x, s[0], key, k, WithKey(tail, key, k));
  }

  /** The sort is stable: for every key, the entries with that key come out in
      the order they went in. */
  lemma {:induction false} SortIsStable(s: seq<Game>, key: Game -> int, k: int)
    ensures WithKey(SortByKey(s, key), key, k) == WithKey(s, key, k)
  {
    if s != [] {
      SortIsStable(s[1..], key, k);
      InsertKeepsKeyOrder(s[0], SortByKey(s[1..], key), key, k);
    }
  }

  /** The `n` entries with the smallest keys, in stable key order. */
  function Top(s: seq<Game>, key: Game -> int, n: nat): (r: seq<Game>)
    ensures |r| == if |s| <= n then |s| else n
    ensures SortedBy(r, key)
  {
    TakeAtMost(SortByKey(s, key), n)
  }

  /** In a sorted list, every entry outside the first `m` has a key no
      smaller than any of the first `m`. */
  lemma SortedPrefixIsSmallest(sorted: seq<Game>, key: Game -> int, m: nat)
    requires SortedBy(sorted, key) && m <= |sorted|
    ensures forall g :: g in multiset(sorted) - multiset(sorted[..m]) ==>
              forall i :: 0 <= i < m ==> key(sorted[i]) <= key(g)
  {
    assert sorted == sorted[..m] + sorted[m..];
    assert multiset(sorted) == multiset(sorted[..m]) + multiset(sorted[m..]);
    forall g | g in multiset(sorted) - multiset(sorted[..m])
      ensures forall i :: 0 <= i < m ==> key(sorted[i]) <= key(g)
    {
      assert g in multiset(sorted[m..]);
      var j :| m <= j < |sorted| && sorted[j] == g;
    }
  }

  /** `Top` keeps the `n` entries with the smallest keys: it is sorted, is
      drawn from the input, and no entry left out has a smaller key than any
      kept one. */
  lemma TopSelects(s: seq<Game>, key: Game -> int, n: nat)
    ensures |Top(s, key, n)| == (if |s| <= n then |s| else n)
    ensures SortedBy(Top(s, key, n), key)
    ensures multiset(Top(s, key, n)) <= multiset(s)
    ensures forall g :: g in multiset(s) - multiset(Top(s, key, n)) ==>
              forall i :: 0 <= i < |Top(s, key, n)| ==> key(Top(s, key, n)[i]) <= key(g)
  {
    var sorted := SortByKey(s, key);
    var top := Top(s, key, n);
    assert top == sorted[..|top|];
    assert sorted == top + sorted[|top|..];
    assert multiset(sorted) == multiset(top) + multiset(sorted[|top|..]);
    SortedPrefixIsSmallest(sorted, key, |top|);
  }

  /** The key of `sort_by_key(|g| Reverse(g.playtime_forever))`: ascending
      in this key is descending in playtime. */
  function DescendingPlaytime(g: Game): (k: int)
    ensures k <= 0
  {
    -(g.playtime as int)
  }

  /** The key reverses the playtime order, so sorting by it puts the most
      played games first. */
  lemma DescendingPlaytimeReverses(a: Game, b: Game)
    ensures DescendingPlaytime(a) <= DescendingPlaytime(b) <==> b.playtime <= a.playtime
  {
  }

  /** The entries of a prefix with a given key are a prefix of the entries
      of the whole list with that key. */
  lemma {:induction false} WithKeyOfPrefix(s: seq<Game>, key: Game -> int, k: int, m: nat)
    requires m <= |s|
    ensures WithKey(s[..m], key, k) <= WithKey(s, key, k)
  {
    if m > 0 {
      WithKeyOfPrefix(s[1..], key, k, m - 1);
      assert s[..m][1..] == s[1..][..m - 1];
      WithKeyCons(s[0], s[..m][1..], key, k);
      WithKeyCons(s[0], s[1..], key, k);
      assert s[..m] == [s[0]] + s[..m][1..];
      assert s == [s[0]] + s[1..];
    }
  }

  /** `Top` keeps ties in input order: for each key, its entries in `Top`
      are the first entries with that key in the input. */
  lemma TopIsStable(s: seq<Game>, key: Game -> int, n: nat, k: int)
    ensures WithKey(Top(s, key, n), key, k) <= WithKey(s, key, k)
  {
    var sorted := SortByKey(s, key);
    SortIsStable(s, key, k);
    WithKeyOfPrefix(sorted, key, k, |Top(s, key, n)|);
  }

  /** Every entry `Top` keeps is an entry of the input. */
  lemma TopDrawsFromInput(s: seq<Game>, key: Game -> int, n: nat, i: nat)
    requires i < |Top(s, key, n)|
    ensures Top(s, key, n)[i] in s
  {
    var top := Top(s, key, n);
    TopSelects(s, key, n);
    assert top[i] in multiset(top);
    assert top[i] in multiset(s);
  }

  /** `Top` by descending playtime lists the most played first. */
  lemma TopOrderedByPlaytime(s: seq<Game>, n: nat)
    ensures forall i, j :: 0 <= i < j < |Top(s, DescendingPlaytime, n)| ==>
              Top(s, DescendingPlaytime, n)[i].playtime >= Top(s, DescendingPlaytime, n)[j].playtime
  {
    var top := Top(s, DescendingPlaytime, n);
    TopSelects(s, DescendingPlaytime, n);
    assert SortedBy(top, DescendingPlaytime);
    forall i, j | 0 <= i < j < |top|
      ensures top[i].playtime >= top[j].playtime
    {
      assert DescendingPlaytime(top[i]) <= DescendingPlaytime(top[j]);
    }
  }

  /** `Top` by descending playtime keeps the most played: it is drawn from
      the input, and no entry left out was played more than any kept one. */
  lemma TopKeepsMostPlayed(s: seq<Game>, n: nat)
    ensures multiset(Top(s, DescendingPlaytime, n)) <= multiset(s)
    ensures forall g :: g in multiset(s) - multiset(Top(s, DescendingPlaytime, n)) ==>
              forall i :: 0 <= i < |Top(s, DescendingPlaytime, n)| ==>
                g.playtime <= Top(s, DescendingPlaytime, n)[i].playtime
  {
    var top := Top(s, DescendingPlaytime, n);
    TopSelects(s, DescendingPlaytime, n);
    forall g | g in multiset(s) - multiset(top)
      ensures forall i :: 0 <= i < |top| ==> g.playtime <= top[i].playtime
    {
      forall i | 0 <= i < |top|
        ensures g.playtime <= top[i].playtime
      {
        assert DescendingPlaytime(top[i]) <= DescendingPlaytime(g);
      }
    }
  }

  /** Inserting with two keys that agree on every entry involved gives the
      same list. */
  lemma {:induction false} InsertKeyCongruence(x: Game, s: seq<Game>, k1: Game -> int, k2: Game -> int)
    requires k1(x) == k2(x)
    requires forall i :: 0 <= i < |s| ==> k1(s[i]) == k2(s[i])
    ensures Insert(x, s, k1) == Insert(x, s, k2)
  {
    if s != [] {
      InsertKeyCongruence(x, s[1..], k1, k2);
    }
  }

  /** Sorting with two keys that agree on every entry of the input gives the
      same list. */
  lemma {:induction false} SortKeyCongruence(s: seq<Game>, k1: Game -> int, k2: Game -> int)
    requires forall i :: 0 <= i < |s| ==> k1(s[i]) == k2(s[i])
    ensures SortByKey(s, k1) == SortByKey(s, k2)
  {
    if s != [] {
      SortKeyCongruence(s[1..], k1, k2);
      var rest := SortByKey(s[1..], k1);
      forall i | 0 <= i < |rest|
        ensures k1(rest[i]) == k2(rest[i])
      {
        assert rest[i] in multiset(s[1..]);
        var j :| 0 <= j < |s[1..]| && s[1..][j] == rest[i];
        assert s[j + 1] == rest[i];
      }
      InsertKeyCongruence(s[0], rest, k1, k2);
    }
  }

  /** `k` is the position `max_by_key(playtime)` reports: no entry has more
      playtime, and every later entry has strictly less (on ties the last
      maximum wins). */
  predicate IsLastMax(s: seq<Game>, k: nat)
  {
    && k < |s|
    && (forall j :: 0 <= j < |s| ==> s[j].playtime <= s[k].playtime)
    && (forall j :: k < j < |s| ==> s[j].playtime < s[k].playtime)
  }

  /** At most one index is the last maximum, so `IsLastMax` names the
      entry `max_by_key` returns. */
  lemma LastMaxUnique(s: seq<Game>, k: nat, k': nat)
    requires IsLastMax(s, k) && IsLastMax(s, k')
    ensures k == k'
  {
    assert s[k].playtime == s[k'].playtime;
  }

  /** Rust's `max_by_key(|g| g.playtime_forever)`: a left fold that replaces
      the current best whenever the next entry is at least as large. */
  function LastMaxIndex(s: seq<Game>): (k: nat)
    requires |s| > 0
    ensures IsLastMax(s, k)
  {
    if |s| == 1 then 0
    else
      var k := LastMaxIndex(s[..|s| - 1]);
      if s[|s| - 1].playtime >= s[k].playtime then |s| - 1 else k
  }
}

=== FILE: recommend.dfy ===
/** The deterministic part of `get_recommendation`: which games go into the
    prompt, and how the text is taken out of the model's answer. The HTTP
    request, the JSON decoding and the random choices are outcomes passed in
    or chosen arbitrarily. */
module Recommend {
  import opened MachineInts
  import opened Games
  import opened Results
  import opened Store
  import opened Ranking

  /** The answer for a user with no stored games; no request is made. */
  const NoGamesText: string := "No games found for this user."

  /** The answer when the model returns no candidate or no part. */
  const NoRecommendationText: string := "⚠️ No recommendation."

  /** Games played less than this many minutes stay out of the prompt. */
  const MinPlaytime: nat := 60

  /** How many of the most played games the prompt lists. */
  const PromptTopCount: nat := 20

  /** The tones one of which is picked at random for each prompt. */
  const Flavours: seq<string> := [
    "You're a chaotic neutral gamer who recommends wild, unexpected hidden gems with zero explanation.",
    "You're a no-nonsense critic who only recommends games with at least one industry award.",
    "You're a nostalgic 90s gamer who misses the arcade days—suggest games that feel like home.",
    "You're a sarcastic gaming gremlin who roasts AAA titles and hypes up indie darlings.",
    "You're a chill stoner gamer just vibing—suggest laid-back, relaxing games to zone out to.",
    "You're a hardcore min-maxer who only cares about peak performance and meta builds—recommend accordingly.",
    "You're a boomer gamer who thinks nothing beats the PS2 era—suggest modern games with that old-school soul.",
    "You're an edgy teen gamer who only plays games with blood, betrayal, or big swords.",
    "You're a broke college student recommending great games that go on sale often or are cheap/free.",
    "You're a therapist disguised as a gamer—recommend emotionally healing games for tough times."
  ]

  /** The tone used if the list of tones were empty. */
  const FallbackFlavour: string := "You're a friendly gamer with decent taste."

  /** `filter(|g| g.playtime_forever >= 60)`, order kept. */
  function Played(games: seq<Game>): (r: seq<Game>)
    ensures forall g :: multiset(r)[g] == if g.playtime >= MinPlaytime then multiset(games)[g] else 0
    ensures forall i :: 0 <= i < |r| ==> r[i].playtime >= MinPlaytime
  {
    if games == [] then []
    else
      assert games == [games[0]] + games[1..];
      (if games[0].playtime >= MinPlaytime then [games[0]] else []) + Played(games[1..])
  }

  /** The sort key as written, `-(g.playtime_forever as i32)`, with the cast
      and the negation at their real width. */
  function SourceSortKey(g: Game): (k: int)
    ensures g.playtime < TwoTo31 ==> k == -(g.playtime as int)
    ensures g.playtime == TwoTo31 ==> k == -TwoTo31
    ensures g.playtime > TwoTo31 ==> k == TwoTo32 - g.playtime > 0
  {
    WrappingNegI32(U32AsI32(g.playtime))
  }

  /** The prompt's top list as written: sort the played games by
      `SourceSortKey`, keep 20. */
  function TopPlayedAsWritten(games: seq<Game>): (r: seq<Game>)
    ensures |r| <= PromptTopCount
    ensures SortedBy(r, SourceSortKey)
  {
    Top(Played(games), SourceSortKey, PromptTopCount)
  }

  /** The prompt's top list as intended: the 20 most played games, most
      played first, ties in stored order. */
  function TopPlayed(games: seq<Game>): (r: seq<Game>)
    ensures |r| <= PromptTopCount
    ensures SortedBy(r, DescendingPlaytime)
  {
    Top(Played(games), DescendingPlaytime, PromptTopCount)
  }

  /** For every playtime below 2^31 minutes the two keys order games alike,
      so the written selection is the intended one. */
  lemma SourceKeyAgreesBelow2To31(games: seq<Game>)
    requires forall i :: 0 <= i < |games| ==> games[i].playtime < TwoTo31
    ensures TopPlayedAsWritten(games) == TopPlayed(games)
  {
    var played := Played(games);
    forall i | 0 <= i < |played|
      ensures SourceSortKey(played[i]) == DescendingPlaytime(played[i])
    {
      assert played[i] in multiset(played);
      assert played[i] in multiset(games);
      var j :| 0 <= j < |games| && games[j] == played[i];
    }
    SortKeyCongruence(played, SourceSortKey, DescendingPlaytime);
  }

  /** The written key puts a game played more than 2^31 minutes after one
      played 100 minutes: the list comes out in ascending playtime. */
  lemma SourceKeyMisordersAbove2To31()
    ensures var a := Game("A", 100);
      var b := Game("B", TwoTo31 + 1);
      && TopPlayedAsWritten([a, b]) == [a, b]
      && a.playtime < b.playtime
  {
    var a := Game("A", 100);
    var b := Game("B", TwoTo31 + 1);
    assert Played([a, b]) == [a, b] by {
      assert [a, b][1..] == [b];
      assert Played([b]) == [b] by {
        assert [b][1..] == [];
      }
    }
    assert SourceSortKey(a) == -100;
    assert SourceSortKey(b) == TwoTo31 - 1;
    assert SortByKey([b], SourceSortKey) == [b] by {
      assert [b][1..] == [];
    }
    assert SortByKey([a, b], SourceSortKey) == Insert(a, [b], SourceSortKey) by {
      assert [a, b][1..] == [b];
    }
  }

  /** At exactly 2^31 minutes the release build's negation wraps back to
      `i32::MIN`, the smallest key, so that game still comes first. */
  lemma SourceKeyAtExactly2To31()
    ensures var a := Game("A", 100);
      var b := Game("B", TwoTo31);
      TopPlayedAsWritten([a, b]) == [b, a]
  {
    var a := Game("A", 100);
    var b := Game("B", TwoTo31);
    assert Played([a, b]) == [a, b] by {
      assert [a, b][1..] == [b];
      assert Played([b]) == [b] by {
        assert [b][1..] == [];
      }
    }
    assert SourceSortKey(a) == -100;
    assert SourceSortKey(b) == -TwoTo31;
    assert SortByKey([b], SourceSortKey) == [b] by {
      assert [b][1..] == [];
    }
    assert SortByKey([a, b], SourceSortKey) == Insert(a, [b], SourceSortKey) by {
      assert [a, b][1..] == [b];
    }
    assert Insert(a, [b], SourceSortKey) == [b, a] by {
      assert [b][1..] == [];
    }
  }

  /** The intended list is short and only lists games actually played: at
      most 20 entries, each played at least 60 minutes. */
  lemma TopPlayedBounds(games: seq<Game>)
    ensures |TopPlayed(games)| <= PromptTopCount
    ensures forall i :: 0 <= i < |TopPlayed(games)| ==> TopPlayed(games)[i].playtime >= MinPlaytime
  {
    var played := Played(games);
    var top := TopPlayed(games);
    assert |top| <= PromptTopCount;
    forall i | 0 <= i < |top|
      ensures top[i].playtime >= MinPlaytime
    {
      TopDrawsFromInput(played, DescendingPlaytime, PromptTopCount, i);
      var j :| 0 <= j < |played| && played[j] == top[i];
    }
  }

  /** Dropping the games played less than an hour keeps the stored order:
      the games of any one playtime appear in `Played` exactly as in the
      input when that playtime is at least 60 minutes, and not at all
      otherwise. */
  lemma {:induction false} PlayedKeepsOrder(games: seq<Game>, k: int)
    ensures WithKey(Played(games), DescendingPlaytime, k) ==
              if -k >= MinPlaytime then WithKey(games, DescendingPlaytime, k) else []
  {
    if games != [] {
      var g, t := games[0], games[1..];
      assert games == [g] + t;
      PlayedKeepsOrder(t, k);
      WithKeyCons(g, t, DescendingPlaytime, k);
      if g.playtime >= MinPlaytime {
        assert Played(games) == [g] + Played(t);
        WithKeyCons(g, Played(t), DescendingPlaytime, k);
      } else {
        assert Played(games) == Played(t);
      }
    }
  }

  /** The intended list is ordered and complete: most played first, ties in
      stored order, and no played game left out has more playtime than any
      listed one. */
  lemma TopPlayedOrder(games: seq<Game>, p: int)
    ensures forall i, j :: 0 <= i < j < |TopPlayed(games)| ==>
              TopPlayed(games)[i].playtime >= TopPlayed(games)[j].playtime
    ensures forall g :: g in multiset(Played(games)) - multiset(TopPlayed(games)) ==>
              forall i :: 0 <= i < |TopPlayed(games)| ==> g.playtime <= TopPlayed(games)[i].playtime
    ensures WithKey(TopPlayed(games), DescendingPlaytime, p) <= WithKey(Played(games), DescendingPlaytime, p)
    ensures WithKey(TopPlayed(games), DescendingPlaytime, p) <= WithKey(games, DescendingPlaytime, p)
  {
    TopOrderedByPlaytime(Played(games), PromptTopCount);
    TopKeepsMostPlayed(Played(games), PromptTopCount);
    TopIsStable(Played(games), DescendingPlaytime, PromptTopCount, p);
    PlayedKeepsOrder(games, p);
  }

  /** One line of the prompt's top list: `"{name} ({hours}h)"`. */
  datatype Entry = Entry(name: string, hours: nat)

  function Entries(gs: seq<Game>): (es: seq<Entry>)
    ensures |es| == |gs|
    ensures forall i :: 0 <= i < |gs| ==> es[i] == Entry(gs[i].name, Hours(gs[i]))
  {
    seq(|gs|, i requires 0 <= i < |gs| => Entry(gs[i].name, Hours(gs[i])))
  }

  /** `shuffle`: some permutation of the list, chosen arbitrarily. */
  method Shuffle(s: seq<Entry>) returns (r: seq<Entry>)
    ensures multiset(r) == multiset(s)
  {
    r := [];
    var rest := s;
    while rest != []
      invariant multiset(r) + multiset(rest) == multiset(s)
      decreases |rest|
    {
      var i :| 0 <= i < |rest|;
      assert rest == rest[..i] + [rest[i]] + rest[i + 1..];
      r := r + [rest[i]];
      rest := rest[..i] + rest[i + 1..];
    }
  }

  /** `choose(..).unwrap_or(fallback)`: an arbitrary element of a non-empty
      list, the fallback for an empty one. */
  method ChooseOr(options: seq<string>, fallback: string) returns (f: string)
    ensures |options| > 0 ==> f in options
    ensures |options| == 0 ==> f == fallback
  {
    if |options| == 0 {
      f := fallback;
    } else {
      var i :| 0 <= i < |options|;
      f := options[i];
    }
  }

  /** One candidate of the model's answer, with the text of its parts. */
  datatype Candidate = Candidate(parts: seq<string>)

  /** The decoded answer: `candidates[..].content.parts[..].text`. */
  datatype ModelAnswer = ModelAnswer(candidates: seq<Candidate>)

  /** The text of the first part of the first candidate, or the fallback
      notice when either is missing. */
  function AnswerText(answer: ModelAnswer): (t: string)
    ensures |answer.candidates| > 0 && |answer.candidates[0].parts| > 0 ==>
              t == answer.candidates[0].parts[0]
    ensures |answer.candidates| == 0 || |answer.candidates[0].parts| == 0 ==>
              t == NoRecommendationText
  {
    if |answer.candidates| > 0 && |answer.candidates[0].parts| > 0
    then answer.candidates[0].parts[0]
    else NoRecommendationText
  }

  /** Why the request to the model produced no answer. */
  datatype RequestError =
      /** The POST or reading its body failed. */
    | PostFailed
      /** The body is not a decodable answer. */
    | UndecodableAnswer

  /** Why `get_recommendation` returned an error: the read of the stored
      games failed, or the request did. */
  datatype RecommendError =
    | ReadFailed(cause: StoreError)
    | RequestFailed(reason: RequestError)

  /** What is sent to the model: the shuffled top list, every owned name,
      and the chosen tone. */
  datatype Request = Request(top: seq<Entry>, owned: seq<string>, flavour: string)

  /** `get_recommendation`. `read` is the result of `get_user_games` and
      `answer` the result of the request, consulted only if one is made;
      `sent` is the request made, if any. The top list is built with the
      intended key; for every playtime below 2^31 minutes it is also the
      list the written key yields. */
  method GetRecommendation(read: Result<seq<Game>, StoreError>, answer: Result<ModelAnswer, RequestError>)
    returns (result: Result<string, RecommendError>, sent: Option<Request>)
    ensures read.Failure? ==> result == Failure(ReadFailed(read.error)) && sent == None
    ensures read.Success? && read.value == [] ==> result == Success(NoGamesText) && sent == None
    ensures read.Success? && read.value != [] ==>
              && sent.Some?
              && multiset(sent.value.top) == multiset(Entries(TopPlayed(read.value)))
              && sent.value.owned == Names(read.value)
              && sent.value.flavour in Flavours
    ensures read.Success? && read.value != [] &&
            (forall i :: 0 <= i < |read.value| ==> read.value[i].playtime < TwoTo31) ==>
              multiset(sent.value.top) == multiset(Entries(TopPlayedAsWritten(read.value)))
    ensures sent.Some? && answer.Success? ==> result == Success(AnswerText(answer.value))
    ensures sent.Some? && answer.Failure? ==> result == Failure(RequestFailed(answer.error))
  {
    if read.Failure? {
      return Failure(ReadFailed(read.error)), None;
    }
    var games := read.value;
    if games == [] {
      return Success(NoGamesText), None;
    }
    var top := Entries(TopPlayed(games));
    if forall i :: 0 <= i < |games| ==> games[i].playtime < TwoTo31 {
      SourceKeyAgreesBelow2To31(games);
    }
    var owned := Names(games);
    var shuffled := Shuffle(top);
    var flavour := ChooseOr(Flavours, FallbackFlavour);
    sent := Some(Request(shuffled, owned, flavour));
    match answer {
      case Failure(e) => result := Failure(RequestFailed(e));
      case Success(a) => result := Success(AnswerText(a));
    }
  }
}

=== FILE: results.dfy ===
/** Option and Result wrappers used for every fallible operation of the model:
    a Rust `Option<T>` becomes `Option<T>`, a Rust `Result<T, E>` becomes
    `Result<T, E>`. */
module Results {

  datatype Option<+T> = None | Some(value: T)

  datatype Result<+T, +E> = Success(value: T) | Failure(error: E)
}

=== FILE: store.dfy ===
/** The PostgreSQL store behind the bot, as two functional maps:

      users: discord_id -> (username, steam_id)
      games: (steam_id, name) -> playtime_forever

    Each query of `src/database/db.rs` is a pure transition or a query on this
    state. A database that cannot be reached is an outcome the callers pass
    in; the failures the statement itself causes are computed here. */
module Store {
  import opened MachineInts
  import opened Games
  import opened Results

  type SteamId = string

  /** A row of `users`, keyed by the Discord id. */
  datatype User = User(username: string, steamId: SteamId)

  /** Both tables. `last_updated` is not modelled. */
  datatype Db = Db(users: map<I64, User>, games: map<(SteamId, string), I32>)

  /** Why a statement failed. `Unavailable` stands for every failure that does
      not depend on the statement (connection lost, pool closed, ...). */
  datatype StoreError =
    | Unavailable
      /** `INSERT ... VALUES` with no rows is not valid SQL. */
    | SyntaxError
      /** The statement needs more bind parameters than PostgreSQL accepts. */
    | TooManyParameters
      /** `ON CONFLICT DO UPDATE` would have to update one row twice. */
    | CardinalityViolation

  // ---------------------------------------------------------------------------
  // users

  /** `link_steam`: `INSERT ... ON CONFLICT(discord_id) DO UPDATE SET
      steam_id = $3`. A new Discord id gets a row with the given username; an
      existing one keeps its username and has its steam id replaced. */
  function LinkSteam(db: Db, username: string, discordId: I64, steamId: SteamId): (r: Db)
    ensures r.users.Keys == db.users.Keys + {discordId}
    ensures r.users[discordId].steamId == steamId
    ensures r.users[discordId].username ==
              if discordId in db.users then db.users[discordId].username else username
    ensures forall d :: d in db.users && d != discordId ==> r.users[d] == db.users[d]
    ensures r.games == db.games
  {
    var user := if discordId in db.users then db.users[discordId].(steamId := steamId)
                else User(username, steamId);
    db.(users := db.users[discordId := user])
  }

  /** `get_steam_id`: the steam id linked to a Discord id, if any. */
  function GetSteamId(db: Db, discordId: I64): (r: Option<SteamId>)
    ensures r.None? <==> discordId !in db.users
    ensures r.Some? ==> r.value == db.users[discordId].steamId
  {
    if discordId in db.users then Some(db.users[discordId].steamId) else None
  }

  /** One call of `link_steam`. */
  datatype LinkCall = LinkCall(username: string, discordId: I64, steamId: SteamId)

  /** The store after a sequence of successful `link_steam` calls, in order. */
  function ApplyLinks(db: Db, calls: seq<LinkCall>): Db
    decreases calls
  {
    if calls == [] then db
    else ApplyLinks(LinkSteam(db, calls[0].username, calls[0].discordId, calls[0].steamId), calls[1..])
  }

  /** The steam id of the last call in `calls` for `discordId`, if there is one. */
  function LatestLink(calls: seq<LinkCall>, discordId: I64): Option<SteamId>
  {
    if calls == [] then None
    else
      var later := LatestLink(calls[1..], discordId);
      if later.Some? then later
      else if calls[0].discordId == discordId then Some(calls[0].steamId)
      else None
  }

  /** A link is one entry per Discord id: after any sequence of links,
      `get_steam_id` returns the most recently linked steam id, and what was
      stored before when the id was not linked in the sequence (so `None` for
      an id that was never linked). */
  lemma {:induction false} GetSteamIdReturnsLatest(db: Db, calls: seq<LinkCall>, discordId: I64)
    ensures GetSteamId(ApplyLinks(db, calls), discordId) ==
              if LatestLink(calls, discordId).Some? then LatestLink(calls, discordId)
              else GetSteamId(db, discordId)
    decreases calls
  {
    if calls != [] {
      var c := calls[0];
      GetSteamIdReturnsLatest(LinkSteam(db, c.username, c.discordId, c.steamId), calls[1..], discordId);
    }
  }

  /** A relink never changes the username: after any sequence of links the
      username of a Discord id is the one it had before, or the one given by
      its first link. */
  lemma {:induction false} RelinkKeepsUsername(db: Db, calls: seq<LinkCall>, discordId: I64)
    requires discordId in db.users
    ensures discordId in ApplyLinks(db, calls).users
    ensures ApplyLinks(db, calls).users[discordId].username == db.users[discordId].username
    decreases calls
  {
    if calls != [] {
      var c := calls[0];
      RelinkKeepsUsername(LinkSteam(db, c.username, c.discordId, c.steamId), calls[1..], discordId);
    }
  }

  /** Linking never touches the games table. */
  lemma {:induction false} LinksKeepGames(db: Db, calls: seq<LinkCall>)
    ensures ApplyLinks(db, calls).games == db.games
    decreases calls
  {
    if calls != [] {
      var c := calls[0];
      LinksKeepGames(LinkSteam(db, c.username, c.discordId, c.steamId), calls[1..]);
    }
  }

  // ---------------------------------------------------------------------------
  // games

  /** PostgreSQL's limit on the bind parameters of one statement. */
  const MaxBindParameters: nat := 65535

  /** Each row of the batch binds steam_id, name and playtime; `NOW()` is
      literal SQL. */
  const BindsPerRow: nat := 3

  /** The names a list of games mentions. */
  function NameSet(gs: seq<Game>): set<string>
  {
    set i | 0 <= i < |gs| :: gs[i].name
  }

  /** A batch the single multi-row upsert statement executes without error. */
  predicate BatchAccepted(batch: seq<Game>)
  {
    && |batch| > 0
    && |batch| * BindsPerRow <= MaxBindParameters
    && DistinctNames(batch)
  }

  /** The rows a batch writes for one steam id. */
  function BatchRows(steamId: SteamId, batch: seq<Game>): (rows: map<(SteamId, string), I32>)
    requires DistinctNames(batch)
    ensures rows.Keys == set n | n in NameSet(batch) :: (steamId, n)
    ensures forall i :: 0 <= i < |batch| ==> rows[(steamId, batch[i].name)] == U32AsI32(batch[i].playtime)
  {
    map i | 0 <= i < |batch| :: (steamId, batch[i].name) := U32AsI32(batch[i].playtime)
  }

  /** `store_steam_games`: one `INSERT INTO games ... VALUES (...), ...
      ON CONFLICT (steam_id, name) DO UPDATE SET playtime_forever =
      EXCLUDED.playtime_forever`. All rows are written or none: the statement
      fails on an empty batch, on too many bind parameters and on a name that
      appears twice. */
  function Upsert(db: Db, steamId: SteamId, batch: seq<Game>): (r: Result<Db, StoreError>)
    ensures r.Success? <==> BatchAccepted(batch)
    ensures r.Failure? ==> r.error != Unavailable
    ensures r.Success? ==> r.value.users == db.users
    // every game of the batch is stored, with a playtime that reads back unchanged
    ensures r.Success? ==> forall g :: g in batch ==>
              (steamId, g.name) in r.value.games && I32AsU32(r.value.games[(steamId, g.name)]) == g.playtime
    // nothing is deleted
    ensures r.Success? ==> db.games.Keys <= r.value.games.Keys
    // rows of other steam ids, and rows of this one not named in the batch, are unchanged
    ensures r.Success? ==> forall key :: key in db.games && (key.0 != steamId || key.1 !in NameSet(batch)) ==>
              r.value.games[key] == db.games[key]
    // the only new rows are the batch's
    ensures r.Success? ==> forall key :: key in r.value.games && key !in db.games ==>
              key.0 == steamId && key.1 in NameSet(batch)
  {
    if |batch| == 0 then Failure(SyntaxError)
    else if |batch| * BindsPerRow > MaxBindParameters then Failure(TooManyParameters)
    else if !DistinctNames(batch) then Failure(CardinalityViolation)
    else
      MergeRows(db.games, steamId, batch);
      Success(db.(games := db.games + BatchRows(steamId, batch)))
  }

  /** Laying a batch's rows over a table: the batch's rows take their new
      playtimes, every other row is kept, and nothing else appears. */
  lemma MergeRows(games: map<(SteamId, string), I32>, steamId: SteamId, batch: seq<Game>)
    requires DistinctNames(batch)
    ensures var merged := games + BatchRows(steamId, batch);
      && (forall g :: g in batch ==>
            (steamId, g.name) in merged && I32AsU32(merged[(steamId, g.name)]) == g.playtime)
      && games.Keys <= merged.Keys
      && (forall key :: key in games && (key.0 != steamId || key.1 !in NameSet(batch)) ==>
            merged[key] == games[key])
      && (forall key :: key in merged && key !in games ==> key.0 == steamId && key.1 in NameSet(batch))
  {
    var rows := BatchRows(steamId, batch);
    forall g | g in batch
      ensures (steamId, g.name) in rows && rows[(steamId, g.name)] == U32AsI32(g.playtime)
    {
      var i :| 0 <= i < |batch| && batch[i] == g;
    }
  }

  /** Upserting the same batch twice leaves the same store as upserting it
      once. */
  lemma UpsertIdempotent(db: Db, steamId: SteamId, batch: seq<Game>)
    requires BatchAccepted(batch)
    ensures Upsert(Upsert(db, steamId, batch).value, steamId, batch) == Upsert(db, steamId, batch)
  {
    var once := Upsert(db, steamId, batch).value;
    var rows := BatchRows(steamId, batch);
    assert once.games == db.games + rows;
    assert once.games + rows == db.games + rows;
  }

  /** Last write wins: after two successful upserts for one steam id, a name in
      the second batch has the second batch's playtime, and a name only in the
      first has the first batch's. Playtimes overwrite; they never add up. */
  lemma LastWriteWins(db: Db, steamId: SteamId, first: seq<Game>, second: seq<Game>)
    requires BatchAccepted(first) && BatchAccepted(second)
    ensures var after := Upsert(Upsert(db, steamId, first).value, steamId, second).value;
      && (forall g :: g in second ==> I32AsU32(after.games[(steamId, g.name)]) == g.playtime)
      && (forall g :: g in first && g.name !in NameSet(second) ==>
            I32AsU32(after.games[(steamId, g.name)]) == g.playtime)
  {
  }

  /** The rows the table holds for one steam id, by name. */
  function StoredNames(db: Db, steamId: SteamId): set<string>
  {
    set key | key in db.games && key.0 == steamId :: key.1
  }

  /** `rs` is a possible answer of `get_user_games(steamId)`: one entry per
      stored row of that steam id, each with the stored playtime read back
      `as u32`, in whatever order the database returns them. */
  predicate ListsRows(db: Db, steamId: SteamId, rs: seq<Game>)
  {
    && DistinctNames(rs)
    && NameSet(rs) == StoredNames(db, steamId)
    && forall i :: 0 <= i < |rs| ==>
         (steamId, rs[i].name) in db.games && rs[i].playtime == I32AsU32(db.games[(steamId, rs[i].name)])
  }

  /** Appending one game adds its name to the name set. */
  lemma NameSetAppend(gs: seq<Game>, g: Game)
    ensures NameSet(gs + [g]) == NameSet(gs) + {g.name}
  {
    var both := gs + [g];
    assert both[|gs|] == g;
    forall n | n in NameSet(gs)
      ensures n in NameSet(both)
    {
      var i :| 0 <= i < |gs| && gs[i].name == n;
      assert both[i] == gs[i];
    }
  }

  /** `get_user_games`: `SELECT name, playtime_forever FROM games WHERE
      steam_id = $1`. The statement has no `ORDER BY`, so the row order is
      chosen arbitrarily here. */
  method GetUserGames(db: Db, steamId: SteamId) returns (rs: seq<Game>)
    ensures ListsRows(db, steamId, rs)
  {
    var remaining := StoredNames(db, steamId);
    rs := [];
    while remaining != {}
      invariant remaining !! NameSet(rs)
      invariant remaining + NameSet(rs) == StoredNames(db, steamId)
      invariant DistinctNames(rs)
      invariant forall i :: 0 <= i < |rs| ==>
                  (steamId, rs[i].name) in db.games && rs[i].playtime == I32AsU32(db.games[(steamId, rs[i].name)])
      decreases remaining
    {
      var name :| name in remaining;
      assert (steamId, name) in db.games;
      var row := Game(name, I32AsU32(db.games[(steamId, name)]));
      NameSetAppend(rs, row);
      rs := rs + [row];
      remaining := remaining - {name};
    }
  }

  /** A list with distinct names has as many entries as names. */
  lemma {:induction false} DistinctNamesCount(gs: seq<Game>)
    requires DistinctNames(gs)
    ensures |NameSet(gs)| == |gs|
  {
    if gs != [] {
      var init := gs[..|gs| - 1];
      DistinctNamesCount(init);
      assert NameSet(gs) == NameSet(init) + {gs[|gs| - 1].name};
      assert gs[|gs| - 1].name !in NameSet(init);
    }
  }

  /** `get_user_games` returns exactly one entry per stored row, and the empty
      list for a steam id with no rows. */
  lemma ListsRowsCount(db: Db, steamId: SteamId, rs: seq<Game>)
    requires ListsRows(db, steamId, rs)
    ensures |rs| == |StoredNames(db, steamId)|
    ensures StoredNames(db, steamId) == {} <==> rs == []
  {
    DistinctNamesCount(rs);
  }

  /** Store-then-read round trip: after a successful upsert, every game of the
      batch comes back from `get_user_games` exactly as it was stored, name
      and playtime, for every `u32` playtime. */
  lemma ReadAfterUpsert(db: Db, steamId: SteamId, batch: seq<Game>, rs: seq<Game>)
    requires Upsert(db, steamId, batch).Success?
    requires ListsRows(Upsert(db, steamId, batch).value, steamId, rs)
    ensures forall g :: g in batch ==> g in rs
  {
    var after := Upsert(db, steamId, batch).value;
    forall g | g in batch
      ensures g in rs
    {
      assert g.name in StoredNames(after, steamId);
      var i :| 0 <= i < |rs| && rs[i].name == g.name;
      PlaytimeRoundTrip(g.playtime);
      assert rs[i] == g;
    }
  }

  /** An upsert adds exactly the batch's names to the steam id's rows. */
  lemma StoredNamesAfterUpsert(db: Db, steamId: SteamId, batch: seq<Game>)
    requires Upsert(db, steamId, batch).Success?
    ensures StoredNames(Upsert(db, steamId, batch).value, steamId) == StoredNames(db, steamId) + NameSet(batch)
  {
    var after := Upsert(db, steamId, batch).value;
    forall n | n in NameSet(batch)
      ensures n in StoredNames(after, steamId)
    {
      var i :| 0 <= i < |batch| && batch[i].name == n;
      assert (steamId, n) in after.games;
    }
    forall n | n in StoredNames(db, steamId)
      ensures n in StoredNames(after, steamId)
    {
      assert (steamId, n) in after.games;
    }
  }

  /** Two single-game upserts of one name for a steam id with no rows leave
      `get_user_games` returning just the second game. */
  lemma SingleNameOverwrite(db: Db, steamId: SteamId, first: Game, second: Game, rs: seq<Game>)
    requires first.name == second.name
    requires StoredNames(db, steamId) == {}
    requires ListsRows(Upsert(Upsert(db, steamId, [first]).value, steamId, [second]).value, steamId, rs)
    ensures rs == [second]
  {
    var once := Upsert(db, steamId, [first]).value;
    var after := Upsert(once, steamId, [second]).value;
    assert NameSet([first]) == {first.name};
    assert NameSet([second]) == {second.name};
    StoredNamesAfterUpsert(db, steamId, [first]);
    StoredNamesAfterUpsert(once, steamId, [second]);
    ListsRowsCount(after, steamId, rs);
    assert rs[0].name in NameSet(rs);
    assert second in [second];
    PlaytimeRoundTrip(second.playtime);
  }

  /** The overwrite example: upserting `[("G", 10)]` and then `[("G", 20)]`
      for a steam id with no rows leaves `get_user_games` returning exactly
      `[("G", 20)]`. */
  lemma OverwriteExample(db: Db, steamId: SteamId, rs: seq<Game>)
    requires StoredNames(db, steamId) == {}
    requires ListsRows(Upsert(Upsert(db, steamId, [Game("G", 10)]).value, steamId, [Game("G", 20)]).value, steamId, rs)
    ensures rs == [Game("G", 20)]
  {
    SingleNameOverwrite(db, steamId, Game("G", 10), Game("G", 20), rs);
  }

  /** `rs` is a possible answer of `get_all_steam_ids`: the steam id of every
      `users` row, one entry per row, in whatever order the database returns
      them; `order` names the Discord id of each entry's row. */
  predicate ListsSteamIds(db: Db, ids: seq<SteamId>, order: seq<I64>)
  {
    && |order| == |ids|
    && (forall i, j :: 0 <= i < j < |order| ==> order[i] != order[j])
    && (forall i :: 0 <= i < |order| ==> order[i] in db.users && ids[i] == db.users[order[i]].steamId)
    && (forall d :: d in db.users ==> d in order)
  }

  /** `get_all_steam_ids`: `SELECT steam_id FROM users`, in an arbitrary row
      order. A steam id linked by two Discord users appears twice. */
  method GetAllSteamIds(db: Db) returns (ids: seq<SteamId>, ghost order: seq<I64>)
    ensures ListsSteamIds(db, ids, order)
    ensures |ids| == |db.users|
    ensures forall d :: d in db.users ==> db.users[d].steamId in ids
  {
    var remaining := db.users.Keys;
    ids, order := [], [];
    while remaining != {}
      invariant remaining <= db.users.Keys
      invariant |order| == |ids|
      invariant forall i, j :: 0 <= i < j < |order| ==> order[i] != order[j]
      invariant forall i :: 0 <= i < |order| ==>
                  order[i] in db.users && order[i] !in remaining && ids[i] == db.users[order[i]].steamId
      invariant forall d :: d in db.users ==> d in remaining || d in order
      invariant |order| + |remaining| == |db.users|
      decreases remaining
    {
      var d :| d in remaining;
      ids, order := ids + [db.users[d].steamId], order + [d];
      remaining := remaining - {d};
    }
    ListedIdsCoverUsers(db, ids, order);
  }

  /** Every linked user's steam id is in a listing of all steam ids. */
  lemma ListedIdsCoverUsers(db: Db, ids: seq<SteamId>, order: seq<I64>)
    requires ListsSteamIds(db, ids, order)
    ensures forall d :: d in db.users ==> db.users[d].steamId in ids
  {
    forall d | d in db.users
      ensures db.users[d].steamId in ids
    {
      var i :| 0 <= i < |order| && order[i] == d;
      assert ids[i] == db.users[d].steamId;
    }
  }
}

=== FILE: sync.dfy ===
/** The bulk refresh the scheduler runs once a day: enumerate every linked
    steam id, then fetch and upsert each one in turn. The Steam fetch and the
    database's availability are outcomes passed in, one per enumerated id. */
module Sync {
  import opened MachineInts
  import opened Games
  import opened Results
  import opened Store

  /** The cron expression of the daily job: minute 0 of hour 3, every day. */
  const DailySchedule: string := "0 3 * * *"

  /** A failed Steam request or an unparsable answer. */
  datatype FetchError = FetchError

  /** What the loop logs for one steam id. */
  datatype Attempt =
    | FetchFailed(steamId: SteamId)
    | StoreFailed(steamId: SteamId, error: StoreError)
    | Updated(steamId: SteamId)

  /** One upsert the loop issues and the database accepts. */
  datatype Write = Write(steamId: SteamId, batch: seq<Game>)

  predicate AllAccepted(writes: seq<Write>)
  {
    forall i :: 0 <= i < |writes| ==> BatchAccepted(writes[i].batch)
  }

  /** The store after the given upserts, applied in order. */
  function UpsertInOrder(db: Db, writes: seq<Write>): Db
    requires AllAccepted(writes)
  {
    if writes == [] then db
    else
      var last := writes[|writes| - 1];
      Upsert(UpsertInOrder(db, writes[..|writes| - 1]), last.steamId, last.batch).value
  }

  /** The fetch of this id succeeded and its upsert went through. */
  predicate Stored(fetched: Result<seq<Game>, FetchError>, storeUp: bool)
  {
    fetched.Success? && storeUp && BatchAccepted(fetched.value)
  }

  /** The upserts the database accepted among the first `k` ids: each is the
      id's own fetched batch, in enumeration order. */
  function StoredWrites(ids: seq<SteamId>, fetched: seq<Result<seq<Game>, FetchError>>,
                        storeUp: seq<bool>, k: nat): (ws: seq<Write>)
    requires k <= |ids| == |fetched| == |storeUp|
    ensures AllAccepted(ws)
  {
    if k == 0 then []
    else
      StoredWrites(ids, fetched, storeUp, k - 1)
        + (if Stored(fetched[k - 1], storeUp[k - 1]) then [Write(ids[k - 1], fetched[k - 1].value)] else [])
  }

  /** One pass of the loop body for one id: fetch, then upsert the fetched
      games under that same id. A failed fetch or upsert leaves the store as
      it was. */
  function SyncOne(db: Db, steamId: SteamId, fetched: Result<seq<Game>, FetchError>, storeUp: bool)
    : (out: (Db, Attempt))
    ensures out.1.steamId == steamId
    ensures out.1.FetchFailed? <==> fetched.Failure?
    ensures out.1.Updated? <==> Stored(fetched, storeUp)
    ensures !out.1.Updated? ==> out.0 == db
    ensures out.1.Updated? ==> out.0 == Upsert(db, steamId, fetched.value).value
    ensures out.0.users == db.users
  {
    match fetched
    case Failure(_) => (db, FetchFailed(steamId))
    case Success(games) =>
      if !storeUp then (db, StoreFailed(steamId, Unavailable))
      else
        match Upsert(db, steamId, games)
        case Failure(e) => (db, StoreFailed(steamId, e))
        case Success(next) => (next, Updated(steamId))
  }

  /** Extending the prefix by one id applies that id's loop body to the store
      the prefix produced. */
  lemma StoredWritesNext(db: Db, ids: seq<SteamId>, fetched: seq<Result<seq<Game>, FetchError>>,
                         storeUp: seq<bool>, k: nat)
    requires k < |ids| == |fetched| == |storeUp|
    ensures UpsertInOrder(db, StoredWrites(ids, fetched, storeUp, k + 1)) ==
              SyncOne(UpsertInOrder(db, StoredWrites(ids, fetched, storeUp, k)), ids[k], fetched[k], storeUp[k]).0
  {
    var before := StoredWrites(ids, fetched, storeUp, k);
    if Stored(fetched[k], storeUp[k]) {
      var w := Write(ids[k], fetched[k].value);
      assert StoredWrites(ids, fetched, storeUp, k + 1) == before + [w];
      assert (before + [w])[..|before|] == before;
    } else {
      assert StoredWrites(ids, fetched, storeUp, k + 1) == before;
    }
  }

  /** The log records, for each of its entries, the id it belongs to and
      which step of the loop body ended that id's attempt. */
  predicate LogAgrees(ids: seq<SteamId>, fetched: seq<Result<seq<Game>, FetchError>>,
                      storeUp: seq<bool>, log: seq<Attempt>)
    requires |log| <= |ids| == |fetched| == |storeUp|
  {
    && (forall i :: 0 <= i < |log| ==> log[i].steamId == ids[i])
    && (forall i :: 0 <= i < |log| ==> (log[i].FetchFailed? <==> fetched[i].Failure?))
    && (forall i :: 0 <= i < |log| ==> (log[i].Updated? <==> Stored(fetched[i], storeUp[i])))
  }

  /** Appending the attempt for the next id keeps the log in agreement. */
  lemma LogAgreesNext(ids: seq<SteamId>, fetched: seq<Result<seq<Game>, FetchError>>,
                      storeUp: seq<bool>, log: seq<Attempt>, a: Attempt)
    requires |log| < |ids| == |fetched| == |storeUp|
    requires LogAgrees(ids, fetched, storeUp, log)
    requires a.steamId == ids[|log|]
    requires a.FetchFailed? <==> fetched[|log|].Failure?
    requires a.Updated? <==> Stored(fetched[|log|], storeUp[|log|])
    ensures LogAgrees(ids, fetched, storeUp, log + [a])
  {
  }

  /** `sync_all_users_games`. A failed enumeration ends the run with nothing
      fetched or stored. Otherwise every id is tried exactly once, in order: a
      failed fetch skips only that id's upsert, a failed upsert is logged,
      and neither stops the loop. The final store is the initial one with
      the fetched batches of exactly the ids whose fetch and upsert both
      succeeded applied in order. The source returns `Ok(())` on every path,
      so the model has no error result. */
  method SyncAllUsersGames(db: Db, listing: Result<seq<SteamId>, StoreError>,
                           fetched: seq<Result<seq<Game>, FetchError>>, storeUp: seq<bool>)
    returns (r: Db, log: seq<Attempt>)
    requires listing.Success? ==> |fetched| == |listing.value| && |storeUp| == |listing.value|
    ensures listing.Failure? ==> r == db && log == []
    ensures listing.Success? ==>
      var ids := listing.value;
      && |log| == |ids|
      && (forall i :: 0 <= i < |ids| ==> log[i].steamId == ids[i])
      && (forall i :: 0 <= i < |ids| ==> (log[i].FetchFailed? <==> fetched[i].Failure?))
      && (forall i :: 0 <= i < |ids| ==> (log[i].Updated? <==> Stored(fetched[i], storeUp[i])))
      && r == UpsertInOrder(db, StoredWrites(ids, fetched, storeUp, |ids|))
    ensures r.users == db.users
  {
    if listing.Failure? {
      return db, [];
    }
    var ids := listing.value;
    r, log := db, [];
    var i := 0;
    while i < |ids|
      invariant 0 <= i <= |ids|
      invariant |log| == i
      invariant LogAgrees(ids, fetched, storeUp, log)
      invariant r == UpsertInOrder(db, StoredWrites(ids, fetched, storeUp, i))
      invariant r.users == db.users
    {
      var out := SyncOne(r, ids[i], fetched[i], storeUp[i]);
      StoredWritesNext(db, ids, fetched, storeUp, i);
      LogAgreesNext(ids, fetched, storeUp, log, out.1);
      r := out.0;
      log := log + [out.1];
      i := i + 1;
    }
  }

  /** `sync_all_users_games` with its enumeration done by `get_all_steam_ids`
      on the same store; `listingUp` says whether the database answers it.
      When it does, there is one attempt per users row, and every linked
      user's steam id gets an attempt. */
  method SyncLinkedUsers(db: Db, listingUp: bool,
                         fetched: seq<Result<seq<Game>, FetchError>>, storeUp: seq<bool>)
    returns (r: Db, log: seq<Attempt>)
    requires |fetched| == |db.users| && |storeUp| == |db.users|
    ensures !listingUp ==> r == db && log == []
    ensures listingUp ==> |log| == |db.users|
    ensures listingUp ==> forall d :: d in db.users ==>
              exists i :: 0 <= i < |log| && log[i].steamId == db.users[d].steamId
    ensures r.users == db.users
  {
    if !listingUp {
      r, log := SyncAllUsersGames(db, Failure(Unavailable), fetched, storeUp);
      return;
    }
    var ids;
    ghost var order;
    ids, order := GetAllSteamIds(db);
    r, log := SyncAllUsersGames(db, Success(ids), fetched, storeUp);
    forall d | d in db.users
      ensures exists i :: 0 <= i < |log| && log[i].steamId == db.users[d].steamId
    {
      var i :| 0 <= i < |ids| && ids[i] == db.users[d].steamId;
      assert log[i].steamId == ids[i];
    }
  }

  /** A batch written by one upsert survives every later upsert for other
      steam ids. */
  lemma {:induction false} BatchSurvivesOtherIds(db: Db, ws: seq<Write>, k: nat)
    requires AllAccepted(ws) && k < |ws|
    requires forall j :: k < j < |ws| ==> ws[j].steamId != ws[k].steamId
    ensures forall g :: g in ws[k].batch ==>
              (ws[k].steamId, g.name) in UpsertInOrder(db, ws).games
              && I32AsU32(UpsertInOrder(db, ws).games[(ws[k].steamId, g.name)]) == g.playtime
  {
    var init := ws[..|ws| - 1];
    assert AllAccepted(init);
    if k == |ws| - 1 {
    } else {
      BatchSurvivesOtherIds(db, init, k);
    }
  }

  /** Bulk isolation: if the fetch and the upsert of the `i`-th id succeed and
      no later id is the same steam id, every game fetched for it is stored
      after the run, whatever happened to the other ids. */
  lemma BulkIsolation(db: Db, ids: seq<SteamId>, fetched: seq<Result<seq<Game>, FetchError>>,
                      storeUp: seq<bool>, i: nat)
    requires |ids| == |fetched| == |storeUp| && i < |ids|
    requires Stored(fetched[i], storeUp[i])
    requires forall j :: i < j < |ids| ==> ids[j] != ids[i]
    ensures var after := UpsertInOrder(db, StoredWrites(ids, fetched, storeUp, |ids|));
      forall g :: g in fetched[i].value ==>
        (ids[i], g.name) in after.games && I32AsU32(after.games[(ids[i], g.name)]) == g.playtime
  {
    var ws := StoredWrites(ids, fetched, storeUp, |ids|);
    var k := WritePosition(ids, fetched, storeUp, i, |ids|);
    BatchSurvivesOtherIds(db, ws, k);
  }

  /** Where the `i`-th id's upsert sits among the accepted upserts of the
      first `n` ids. When no later id repeats its steam id, no upsert after
      it touches that steam id. */
  function WritePosition(ids: seq<SteamId>, fetched: seq<Result<seq<Game>, FetchError>>,
                         storeUp: seq<bool>, i: nat, n: nat): (k: nat)
    requires |ids| == |fetched| == |storeUp| && i < n <= |ids|
    requires Stored(fetched[i], storeUp[i])
    requires forall j :: i < j < |ids| ==> ids[j] != ids[i]
    ensures var ws := StoredWrites(ids, fetched, storeUp, n);
      && k < |ws| && ws[k] == Write(ids[i], fetched[i].value)
      && forall j :: k < j < |ws| ==> ws[j].steamId != ids[i]
  {
    if n - 1 == i then |StoredWrites(ids, fetched, storeUp, n - 1)|
    else WritePosition(ids, fetched, storeUp, i, n - 1)
  }
}
